=== FILE: README.md ===
# tcl.socket core in Dafny

This project models the header-only C++ socket toolkit tcl.socket. It covers four parts:

- **Address value (`csocketaddr`).** A 128-byte `sockaddr_storage` viewed through the Linux
  `sockaddr_in` and `sockaddr_in6` layouts. It is modelled byte for byte, so every setter
  states which bytes it leaves alone. Host byte order is a parameter (`Basics.Endian`):
  `htons`/`htonl` are byte swaps on a little-endian host and the identity on a big-endian one.
- **Shared socket handle (`csocket`).** Every copy of a handle shares one heap cell holding a
  descriptor, and a custom deleter closes the descriptor when the last copy goes. The model
  uses an explicit store of cells (`Handles.Store`) with a reference count per cell and a
  trace of every descriptor passed to `close(2)`.
- **Logic inside `csocket`'s system-call wrappers.** The control-message walk of the
  transparent-proxy `recvfrom`, the millisecond split of `settimeout`, the bit packing of
  `setfanoutmode` and the short-circuit chain of `settcpkeepalive`.
- **The two reactors, `csocketpoll` and `csocketepoll`.** Both keep a registry
  `descriptor -> (handle, is-server, interest mask)` and a cached `pollfd` array. One
  `listen` cycle rebuilds the array if its size is stale, polls, and dispatches each slot
  that reported events:
  - readable or accept first, then writable, then hangup (erase), then error (erase);
  - a descriptor no longer registered is dropped.

  The reactors differ only in the accept step. `csocketpoll` accepts every pending
  connection itself; `csocketepoll` hands the server to the accept callback once. Both share
  one engine (`Dispatch`), parameterised by `AcceptMode` (`Drain` or `Notify`).

System calls are inputs rather than behaviour:

- `poll`'s outcome is `Dispatch.PollResult`.
- Each server's pending `accept` outcomes form a queue (`Dispatch.Backlog`).
- `socket`/`accept` return values and `errno` are parameters.
- The control-message chain `recvmsg` delivers is a sequence of `(level, type, payload)`
  records.
- The result of `inet_pton` and the result of each `setsockopt` call are parameters.
- The iteration order of the registry's `unordered_map` is a parameter `order`, constrained
  to list every key exactly once.
- Callbacks are recorded as a trace of `Dispatch.Event`s.

Modules:

| module | file | models |
|---|---|---|
| `Basics` | basics.dfy | machine integers, bytes, host byte order, `htons`/`htonl` |
| `SockAddr` | sockaddr.dfy | include/csocketaddr.h |
| `Handles` | handles.dfy | the shared-cell handle of include/csocket.h |
| `OrigDst` | origdst.dfy | the transparent-proxy `recvfrom` of include/csocket.h |
| `SocketOptions` | options.dfy | `settimeout`, `setfanoutmode`, `settcpkeepalive` of include/csocket.h |
| `Registry` | registry.dfy | `insert_server`, `insert_client`, `remove` and the `pollfd` rebuild (both reactors) |
| `Dispatch` | dispatch.dfy | the `listen` cycle shared by both reactors |
| `SocketPoll` | socketpoll.dfy | include/csocketpoll.h (draining accept) |
| `SocketEpoll` | socketepoll.dfy | include/csocketepoll.h (single accept notification) |

## Model

| member | source | states |
|---|---|---|
| `SockAddr.Fresh` | include/csocketaddr.h:8 | the default constructor zeroes all 128 storage bytes |
| `SockAddr.FreshIsUnset` | include/csocketaddr.h:8-16 | a fresh address has family 0, `port()` 0, `ip()` 0 and the full storage size as its length |
| `SockAddr.Size` | include/csocketaddr.h:13-16 | the length is 16 for AF_INET, 28 for AF_INET6 and the full 128 for every other family |
| `SockAddr.Port` | include/csocketaddr.h:61-64 | for AF_INET/AF_INET6 the port is the big-endian value of bytes 2..4, whatever the host order; for any other family it is 0 |
| `SockAddr.Ip` | include/csocketaddr.h:79 | the version tag is 4 exactly for AF_INET, 6 exactly for AF_INET6, and 0 otherwise |
| `SockAddr.In4` | include/csocketaddr.h:22-27 | sets family AF_INET, stores the port and `htonl(ip)` in network byte order, and leaves sin_zero and the tail unchanged |
| `SockAddr.In4Text` | include/csocketaddr.h:28-38 | an empty string stores INADDR_ANY; otherwise it stores the parsed address; a failed parse keeps the old address bytes; family, port and tail as for `in4` |
| `SockAddr.In6` | include/csocketaddr.h:41-46 | sets family AF_INET6, the network-order port and the 16 given bytes; flowinfo, scope_id and the tail are unchanged |
| `SockAddr.In6Text` | include/csocketaddr.h:47-59 | an empty string zeroes the 16 address bytes; otherwise it stores the parsed bytes or keeps the old ones; flowinfo, scope_id and the tail are unchanged |
| `SockAddr.In4RoundTrip` | include/csocketaddr.h:61-64 | after `in4(ip, p)`: `port()` is p, `ip()` is 4, the length is 16, and the address bytes decode to ip |
| `SockAddr.In6RoundTrip` | include/csocketaddr.h:41-46 | after `in6(bytes, p)`: `port()` is p, `ip()` is 6 and the length is 28 |
| `SockAddr.TextRoundTrip` | include/csocketaddr.h:28-59 | the textual setters read back the given port and version, whether or not the parse succeeded |
| `Basics.HtonsInvolutive` | include/csocketaddr.h:62 | applying `htons` on store and again on read returns the original port, on either byte order |
| `Basics.HtonsStoresNetworkOrder` | include/csocketaddr.h:24 | an `htons`-converted value stored in host order lies in memory big-endian |
| `Basics.HtonlStoresNetworkOrder` | include/csocketaddr.h:25 | the same for a 32-bit value and `htonl` |
| `Handles.Open` | include/csocket.h:23 | a handle made from a descriptor owns a new cell with one reference; no other cell changes |
| `Handles.Copy` | include/csocket.h:24 | a copy shares the cell (same descriptor, one more reference) and nothing is closed |
| `Handles.Release` | include/csocket.h:16 | dropping a shared copy closes nothing; dropping the last copy frees the cell and closes the descriptor only if it is positive |
| `Handles.Assign` | include/csocket.h:16-25 | self-assignment changes nothing. Otherwise the target shares the source's cell, whose count goes up by one. The target's old cell loses one owner; if that was the last, the cell is freed and its descriptor closed if positive. No other cell changes |
| `Handles.Close` | include/csocket.h:41 | a positive descriptor is closed and the cell set to -1; otherwise the store is unchanged |
| `Handles.CloseIdempotent` | include/csocket.h:41 | calling `close()` twice equals calling it once |
| `Handles.Attach` | include/csocket.h:46 | overwrites the shared descriptor and closes nothing |
| `Handles.AttachSeenByCopies` | include/csocket.h:12 | `attach`, `detach` and `close` through one copy are seen through every copy of the cell |
| `Handles.Detach` | include/csocket.h:51 | returns the held descriptor, leaves -1 behind and closes nothing |
| `Handles.Socket` | include/csocket.h:31-35 | closes the current descriptor if positive, stores the new one in the same cell (its owner count unchanged, so every copy sees it), and returns 0 unless creation failed with a nonzero errno, `-errno` on failure |
| `Handles.Create` | include/csocket.h:15-22 | the creating constructor adds exactly one new cell, with one owner, holding the new descriptor, or throws errno. A throw leaves every cell unchanged. Neither closes anything |
| `Handles.Accept` | include/csocket.h:165-169 | the target is rebound to a fresh single-owner cell holding the accepted descriptor. The old cell loses one owner and older copies keep it; if it was the last, the cell is freed and its descriptor closed if positive. No other cell changes. The result is 0 when the new descriptor is positive and `-errno` otherwise, so also 0 when errno is 0 |
| `Handles.LastReleaseClosesOnce` | include/csocket.h:16 | while owners remain nothing is closed; when the last of them goes, the descriptor is closed exactly once, and only if positive |
| `Handles.FourOwnersCloseOnce` | include/csocket.h:23-25 | a handle copied three times and then fully destroyed closes its descriptor exactly once |
| `Handles.Hash` | include/csocket.h:319 | the hash is the descriptor converted to a 64-bit `size_t` (negative values wrap) |
| `Handles.SameHashConsistent` | include/csocket.h:315-328 | handles equal under `equal_to` hash equally, and copies of a handle are equal |
| `OrigDst.FirstOrigDst` | include/csocket.h:116-124 | the walk stops at the least index holding a SOL_IP/IP_RECVORIGDSTADDR record, or finds none |
| `OrigDst.RecvFrom` | include/csocket.h:105-126 | a result of 0 or less gives `-errno` with `adst` untouched; otherwise the family is reset to 0, the first matching record's 16-byte `sockaddr_in` is copied in with family AF_INET, and later records and the storage tail are ignored |
| `OrigDst.RecoversOriginalDestination` | include/csocket.h:118-122 | a matching record is read back as an IPv4 address with the record's port and address and the `sockaddr_in` length |
| `OrigDst.NoRecordLeavesUnset` | include/csocket.h:115 | with no matching record the destination reads as family 0, port 0 and version 0, and the received length is still returned |
| `SocketOptions.Timeout` | include/csocket.h:229-233 | `tv_usec` < 1,000,000 and `tv_sec`·10⁶ + `tv_usec` = ms·1000 |
| `SocketOptions.TimeoutUnique` | include/csocket.h:231-232 | this is the only split with an in-range microsecond part |
| `SocketOptions.FanoutArg` | include/csocket.h:269-273 | the packed argument carries the low 11 bits of the pid, with -1 replaced by the caller's own pid |
| `SocketOptions.FanoutSmallGroupDecodes` | include/csocket.h:271-272 | for groups below 32 the kernel reads the requested mode and the id `(group << 11) or (pid and 0x7ff)` |
| `SocketOptions.FanoutLargeGroupCorruptsMode` | include/csocket.h:271-272 | group 32 with hash fanout reaches the kernel as load-balancing mode with group id 0 |
| `SocketOptions.FanoutArgMasked` | include/csocket.h:269-273 | with the id truncated to 16 bits, the kernel always reads the requested mode and the truncated id |
| `SocketOptions.FanoutMaskedAgreesOnSmallGroups` | include/csocket.h:271-272 | the truncated packing equals the original for every group below 32 |
| `SocketOptions.SetKeepAlive` | include/csocket.h:298-304 | the calls made are a prefix of enable/count/idle/interval (skipping parameters that are -1); every call but the last succeeded; the result is the last call's; a 0 result means the whole plan ran |
| `Registry.Init` | include/csocketpoll.h:14-15 | a new reactor has an empty registry and an empty array |
| `Registry.Insert` | include/csocketpoll.h:34-39 | `emplace` keyed by the handle's descriptor: an existing key gives false and no change; otherwise the entry is added and true returned |
| `Registry.InsertServer` | include/csocketpoll.h:34-36 | true exactly when the descriptor was absent, in which case a server entry with the mask is added; otherwise the reactor is unchanged; the cached `pollfd` array is never touched |
| `Registry.InsertClient` | include/csocketepoll.h:37-39 | the same with a client entry; the cached `pollfd` array is never touched |
| `Registry.Remove` | include/csocketpoll.h:40-42 | returns 1 exactly when the descriptor was registered; afterwards it is absent and every other entry is unchanged |
| `Registry.DuplicateInsertKeepsFirst` | include/csocketepoll.h:34-39 | a second registration of one descriptor, in either role, fails and leaves the first entry |
| `Registry.Rebuild` | include/csocketpoll.h:45-54 | the rebuilt array has one slot per key, no descriptor twice, events POLLERR, POLLNVAL and the mask and revents 0 |
| `Registry.Prepare` | include/csocketepoll.h:45-54 | the array is rebuilt exactly when its size differs from the registry's; otherwise it is reused as is |
| `Registry.SwapLeavesArrayStale` | include/csocketpoll.h:45 | removing one descriptor and adding another between cycles keeps the stale array: the new descriptor is not polled and the removed one still is |
| `Dispatch.DrainAccepts` | include/csocketpoll.h:68-76 | one accept callback per successful accept (the wrapper's result 0: a positive descriptor, or errno 0), in queue order, with its descriptor, address and the server; the first failed accept ends the loop and is consumed |
| `Dispatch.AcceptSucceedsIsWrapperResult` | include/csocket.h:165-169 | the drain loop's success test holds exactly when `accept` returns 0 |
| `Dispatch.ReadStep` | include/csocketpoll.h:65-80 | POLLIN on a client gives the read callback; on a server it gives accepts (draining) or one notification (notifying); nothing without a handler; only draining touches the queues |
| `Dispatch.Tail` | include/csocketpoll.h:81-91 | the writable, hangup and error callbacks come in that order, all about the slot's handle |
| `Dispatch.TailCallbacks` | include/csocketepoll.h:71-81 | each of writable, hangup and error fires exactly when its bit is set and its callback present |
| `Dispatch.Erase` | include/csocketpoll.h:84-91 | the registry loses the descriptor exactly when hangup or error was reported |
| `Dispatch.Slot` | include/csocketpoll.h:63-96 | a slot whose descriptor is not registered changes nothing and makes no callback; a found one makes callbacks in branch order about its own handle and is erased on hangup or error |
| `Dispatch.SlotTailCallbacks` | include/csocketpoll.h:81-91 | for a found slot, the writable, hangup and error callbacks fire exactly when their bit and handler are present; the error callback still gets the handle after a hangup |
| `Dispatch.SlotReadCallbacks` | include/csocketepoll.h:65-70 | for a found slot, the read callback fires exactly for a readable client with a handler, and the accept notification exactly for a readable server under `csocketepoll` |
| `Dispatch.SlotModeEvents` | include/csocketepoll.h:66-68 | `csocketepoll` never reports an accepted connection and never consumes a queue; `csocketpoll` reports accepted connections and never a bare notification |
| `Dispatch.SlotDrainsBacklog` | include/csocketpoll.h:65-78 | a readable server's accept callbacks come first and are exactly the drained accepts |
| `Dispatch.SlotConsumesBacklog` | include/csocketpoll.h:68-76 | the server's queue afterwards holds what followed the first failed accept |
| `Dispatch.SlotWithoutAcceptHandler` | include/csocketpoll.h:66-67 | without an accept handler no accept is attempted and the POLLIN branch reports nothing |
| `Dispatch.SlotNotifiesOnce` | include/csocketepoll.h:65-68 | a readable server under `csocketepoll` gets exactly one accept callback, first, with the server handle, and nothing is accepted |
| `Dispatch.ErrorLookupAsWritten` | include/csocketpoll.h:84-91 | as written, the iterator used by the error branch still designates the entry only when no hangup erased it |
| `Dispatch.HangupThenErrorDangles` | include/csocketepoll.h:74-81 | with hangup and error together the error branch reads through an erased entry |
| `Dispatch.Run` | include/csocketpoll.h:58-99 | the loop only removes registry entries, never changes the others, and marks as handled only slots with events |
| `Dispatch.RunVisitCount` | include/csocketpoll.h:58-61 | the loop handles exactly min(poll's count, slots with events) slots |
| `Dispatch.RunEvicts` | include/csocketpoll.h:84-96 | after the loop the registry is the original minus exactly the descriptors of handled slots that reported hangup or error |
| `Dispatch.RunSubjects` | include/csocketpoll.h:63-64 | every callback of the loop is about a handle registered when the loop started |
| `Dispatch.RunModeEvents` | include/csocketepoll.h:65-70 | the loop-level accept-mode property of `SlotModeEvents` |
| `Dispatch.WithRevents` | include/csocketpoll.h:56 | `poll` writes each slot's `revents` and leaves descriptors and events alone |
| `Dispatch.Cleared` | include/csocketpoll.h:92 | after dispatch, `revents` is reset in exactly the slots whose descriptor was found |
| `Dispatch.Listen` | include/csocketpoll.h:43-104 | empty registry: -1 with nothing touched; poll failure: 0 on EINTR, else `-errno`, with no callback; success: poll's count, and a count of 0 (timeout) makes no callback and leaves registry and queues alone. On a failure the reactor keeps the prepared array; on a count of 0 it keeps that array with poll's `revents`. The array matches the registry's size, entries are only removed, and distinct array descriptors stay distinct |
| `Dispatch.Polled` | include/csocketpoll.h:55-56 | the dispatched slots are the prepared array with poll's `revents` |
| `Dispatch.ListenEvicts` | include/csocketepoll.h:57-86 | after a cycle the registry lacks exactly the descriptors of handled hangup or error slots |
| `Dispatch.ListenTerminalSlots` | include/csocketepoll.h:74-81 | a handled hangup or error slot's descriptor is gone after the cycle; a handled slot with neither keeps its entry |
| `Dispatch.ListenVisitCount` | include/csocketepoll.h:57-61 | one cycle handles exactly min(poll's count, slots with events) slots |
| `Dispatch.ListenResultIgnoresCallbacks` | include/csocketpoll.h:101 | the return value does not depend on handlers, accept mode or pending connections |
| `Dispatch.ListenModeEvents` | include/csocketpoll.h:65-78 | the cycle-level accept-mode property |
| `Dispatch.SingleSlotCycle` | include/csocketepoll.h:55-91 | a one-descriptor registry whose array is current: the cycle is that slot's dispatch, and returns 1 |
| `Dispatch.ListenSubjects` | include/csocketepoll.h:63-64 | every callback of a cycle is about a handle registered when it started |
| `Dispatch.Active` | include/csocketpoll.h:58-60 | the indices from a start point whose slot reported events, each in range, strictly increasing |
| `Dispatch.ActiveAt` | include/csocketpoll.h:58-60 | every slot with events lies in that list, at the position given by the number of earlier slots with events |
| `Dispatch.Visits` | include/csocketpoll.h:58-61 | the slots a cycle handles: slots with events, in array order, at most poll's count of them |
| `Dispatch.VisitsAreVisited` | include/csocketpoll.h:58-61 | that list holds exactly the slots the counting loop handles, the one preceded by k slots with events at position k |
| `Dispatch.DispatchAll` | include/csocketpoll.h:62-96 | dispatching a list of slots one after another; only listed slots are marked found |
| `Dispatch.RunIsDispatchAll` | include/csocketpoll.h:58-98 | the counting loop makes the callbacks, registry, queues and found set of dispatching the next slots with events in order |
| `Dispatch.ListenDispatchesVisits` | include/csocketepoll.h:57-88 | a cycle's callbacks, registry and queues are those of dispatching its handled slots one after another, and exactly the found ones get `revents` reset |
| `Dispatch.DispatchAllReports` | include/csocketpoll.h:62-91 | in such a dispatch over distinct descriptors, each slot registered at the start is found and makes every callback its revents and handlers call for, whatever the other slots do: read, notification, writable, hangup and error callbacks, and for a drained server its accept callbacks as one contiguous run with its queue left as the drain loop left it |
| `Dispatch.SlotBacklogFrame` | include/csocketpoll.h:65-76 | a slot's dispatch touches no accept queue but its own descriptor's |
| `Dispatch.SlotDrainPending` | include/csocketpoll.h:68-76 | a drained server's queue afterwards is what the drain loop left, whether or not one was recorded |
| `Dispatch.DispatchAllBacklogFrame` | include/csocketpoll.h:58-98 | dispatching a list of slots leaves the queue of every descriptor not among them untouched |
| `Dispatch.ListenReports` | include/csocketpoll.h:55-92 | in a cycle of any size, a handled slot registered at the start gets every callback its revents and handlers call for (for a drained server, its accepts as one contiguous run and its queue as the drain loop left it), and its `revents` reset; an unhandled slot keeps poll's `revents` |
| `SocketPoll.Listen` | include/csocketpoll.h:43-104 | no bare accept notification is made, every callback is about a handle registered when the cycle started, and a poll count of 0 makes no callback and removes nothing |
| `SocketPoll.DrainedServerSlot` | include/csocketpoll.h:65-78 | a readable server whose pending accepts all succeed reports them all and ends with an empty queue |
| `SocketPoll.PendingConnectionsAllAccepted` | include/csocketpoll.h:67-76 | N waiting connections give N accept callbacks in queue order, an empty queue, the server still registered, and result 1 |
| `SocketPoll.ReadThenHangup` | include/csocketpoll.h:65-87 | a client reporting data and hangup gets the read callback, then the hangup callback, and is unregistered |
| `SocketEpoll.Listen` | include/csocketepoll.h:43-94 | pending queues are untouched, no accepted connection is reported, every callback is about a handle registered when the cycle started, and a poll count of 0 makes no callback and removes nothing |
| `SocketEpoll.ReadableServerNotifiedOnce` | include/csocketepoll.h:65-68 | a readable server gets exactly one accept callback with its handle, stays registered, and the result is 1 |
| `SocketEpoll.ServerErrorEvicts` | include/csocketepoll.h:78-81 | an error on a server gives the error callback with its handle, and the server is unregistered |

## Left out

- Every system call (`socket`, `close`, `accept`, `poll`, `recvmsg`, `setsockopt`, `ioctl`,
  and so on) is an input or a trace entry. Its own behaviour is not modelled.
- `addr()` and the parsing inside the string forms of `in4`/`in6` (`inet_ntop`, `inet_pton`):
  foreign library calls. The parse outcome is a parameter.
- The plain `recvfrom`, `sendto`, `send`, `recv`, `available`, `getoption`, `setoption`,
  `bind`, `bind4`, `bind6`, `bind_iface`, `listen`, `setblockmode` and the one-call option
  setters (`settproxymode`, `setreuseaddr`, `setreuseport`, `setrecviphdr`, `settcpnodelay`,
  `settcpfastopen`): single pass-throughs to a system call with no logic of their own.
  `connect` is declared in include/csocket.h but never defined.
- The timeout argument of both `listen` functions only reaches `poll`, whose outcome is given.
- Callbacks are recorded, not run. A callback that changes the registry during a cycle
  (insert or remove while the loop iterates) is not modelled; registry changes happen between
  cycles.
- Reference counts are single-threaded counters, and the registry's handle copies are not
  threaded through the handle store. The store models sharing and the deleter on its own.
- `std::floor` in `settimeout` acts on an integer quotient, so it is modelled as integer
  division.
- The creating constructor's exception is the `Thrown` outcome of `Handles.Create`.
- `Dispatch.Run`: its own contract only says that entries are removed, never changed. The
  exact removed set, the visit count, the callback subjects and the accept-mode property are
  stated by `RunEvicts`, `RunVisitCount`, `RunSubjects` and `RunModeEvents`. The callbacks
  themselves, slot by slot, are stated by `RunIsDispatchAll`, `ListenDispatchesVisits` and
  `ListenReports`.
- `OrigDst.RecvFrom` requires each control-message payload to hold at least the 16 bytes of
  a `sockaddr_in`. The source copies 16 bytes from the matching record without checking
  `cmsg_len`; the Linux kernel always attaches a full `sockaddr_in` for
  IP_RECVORIGDSTADDR, and a shorter record would be a read past the payload, which the
  model does not describe.
- `Dispatch.DrainAccepts`: each accepted connection lives in a handle local to one loop
  iteration (include/csocketpoll.h:69-73). When that handle goes out of scope, the deleter
  (include/csocket.h:22) closes the accepted descriptor right after the accept callback
  returns, unless the callback kept a copy. The model records the descriptor in the
  `Accepted` event and does not thread that handle through the handle store, so this close
  is not part of the model.
- The draining accept loop of `csocketpoll` assumes a non-blocking listening socket. With a
  blocking one the last `accept` would block; the model ends the loop when the queue is
  exhausted.
- Descriptor 0 is treated as "not open" by `close()` and the deleter. `accept` counts
  as a success a positive descriptor or a zero errno, and `socket()` counts anything but -1
  with a nonzero errno. The model follows each as written. One consequence: in
  `csocketpoll`'s drain loop, an `accept` that returns descriptor 0 with a nonzero errno ends
  the loop, and that descriptor is neither reported nor closed.
- A slot whose descriptor is no longer registered keeps its `revents`. The next `poll`
  overwrites them, so this has no effect.

## Findings

| source | as written | input that shows it | evidently intended | confidence | as-written member | corrected member |
|---|---|---|---|---|---|---|
| include/csocketpoll.h:84-91 | with POLLHUP and POLLERR both set, the hangup branch erases the entry and the error branch then reads the handle through the iterator `soh`, which now designates a freed node (the same code is at include/csocketepoll.h:74-81) | one registered client whose slot reports both POLLHUP and POLLERR, with an error callback set | the error callback receives the handle found before either erase | high, not executed | `Dispatch.ErrorLookupAsWritten` | `Dispatch.Slot` |
| include/csocket.h:269-273 | `group << 11` is not masked to the 16 bits the kernel reads as the group id, so a group of 32 or more spills into the mode bits | `setfanoutmode(32, PACKET_FANOUT_HASH, 0)` reaches the kernel as mode PACKET_FANOUT_LB, group 0 | the id is confined to 16 bits and the mode is the requested one | medium, not executed | `SocketOptions.FanoutArg` | `SocketOptions.FanoutArgMasked` |

The first row's discrepancy is exhibited by `Dispatch.HangupThenErrorDangles`. The corrected
dispatch (`Dispatch.Slot`) gives the error branch the handle captured before any erase: every
event of a found slot is about that handle. `Dispatch.SlotTailCallbacks` adds that the error
callback still fires after a hangup. The
second row's is exhibited by `SocketOptions.FanoutLargeGroupCorruptsMode`. The masked packing
is proved equal to the original on every group below 32 (`FanoutMaskedAgreesOnSmallGroups`).

The tproxy `recvfrom` copies into `&adst`, the address of the `csocketaddr` object rather
than of its storage. `csocketaddr` has no virtual functions and privately derives from
`sockaddr_storage` alone, so the two addresses coincide and the copy lands in the storage.
`OrigDst.RecvFrom` models it that way.

=== FILE: basics.dfy ===
/** Machine integers, byte sequences and host byte order, shared by the
    address, handle and reactor models. */
module Basics {

  type byte = x: int | 0 <= x < 0x100
  type u16 = x: int | 0 <= x < 0x1_0000
  type u32 = x: int | 0 <= x < 0x1_0000_0000
  type u64 = x: int | 0 <= x < 0x1_0000_0000_0000_0000
  type i32 = x: int | -0x8000_0000 <= x < 0x8000_0000

  datatype Option<T> = None | Some(value: T)

  /** Byte order of the machine the headers are compiled for. */
  datatype Endian = Little | Big

  function Zeros(n: nat): (s: seq<byte>)
    ensures |s| == n
    ensures forall i :: 0 <= i < n ==> s[i] == 0
  {
    seq(n, _ => 0)
  }

  /** Two sequences that agree on a range agree on every sub-range. */
  lemma SubRange(a: seq<byte>, b: seq<byte>, lo: nat, hi: nat, i: nat, j: nat)
    requires lo <= i <= j <= hi <= |a| && hi <= |b|
    requires a[lo..hi] == b[lo..hi]
    ensures a[i..j] == b[i..j]
  {
    assert forall k :: i <= k < j ==> a[k] == a[lo..hi][k - lo];
    assert forall k :: i <= k < j ==> b[k] == b[lo..hi][k - lo];
  }

  /** `s` with the bytes at `off .. off + |b|` replaced by `b` (a memcpy). */
  function Splice(s: seq<byte>, off: nat, b: seq<byte>): (r: seq<byte>)
    requires off + |b| <= |s|
    ensures |r| == |s|
    ensures r[off..off + |b|] == b
    ensures forall i :: 0 <= i < |s| && !(off <= i < off + |b|) ==> r[i] == s[i]
  {
    s[..off] + b + s[off + |b|..]
  }

  // Network (big-endian) and little-endian encodings of 16- and 32-bit values.

  function BigEndian16(x: u16): (b: seq<byte>)
    ensures |b| == 2
  {
    [x / 0x100, x % 0x100]
  }

  function LittleEndian16(x: u16): (b: seq<byte>)
    ensures |b| == 2
  {
    [x % 0x100, x / 0x100]
  }

  function FromBigEndian16(b: seq<byte>): (v: u16)
    requires |b| == 2
  {
    (b[0] as int) * 0x100 + b[1] as int
  }

  function FromLittleEndian16(b: seq<byte>): (v: u16)
    requires |b| == 2
  {
    (b[1] as int) * 0x100 + b[0] as int
  }

  function BigEndian32(x: u32): (b: seq<byte>)
    ensures |b| == 4
  {
    BigEndian16(x / 0x1_0000) + BigEndian16(x % 0x1_0000)
  }

  function LittleEndian32(x: u32): (b: seq<byte>)
    ensures |b| == 4
  {
    LittleEndian16(x % 0x1_0000) + LittleEndian16(x / 0x1_0000)
  }

  function FromBigEndian32(b: seq<byte>): (v: u32)
    requires |b| == 4
  {
    (FromBigEndian16(b[..2]) as int) * 0x1_0000 + FromBigEndian16(b[2..]) as int
  }

  /** The in-memory bytes of a 16-bit value stored in host order. */
  function HostBytes16(e: Endian, x: u16): (b: seq<byte>)
    ensures |b| == 2
  {
    if e.Little? then LittleEndian16(x) else BigEndian16(x)
  }

  /** The 16-bit value whose host-order bytes are `b`. */
  function HostValue16(e: Endian, b: seq<byte>): (v: u16)
    requires |b| == 2
  {
    if e.Little? then FromLittleEndian16(b) else FromBigEndian16(b)
  }

  function HostBytes32(e: Endian, x: u32): (b: seq<byte>)
    ensures |b| == 4
  {
    if e.Little? then LittleEndian32(x) else BigEndian32(x)
  }

  /** Exchange the two bytes of a 16-bit value. */
  function Swap16(x: u16): (y: u16)
  {
    ((x % 0x100) as int) * 0x100 + (x / 0x100) as int
  }

  /** Reverse the four bytes of a 32-bit value. */
  function Swap32(x: u32): (y: u32)
  {
    (Swap16(x % 0x1_0000) as int) * 0x1_0000 + Swap16(x / 0x1_0000) as int
  }

  /** `htons` (and `ntohs`, the same operation): a byte swap on a
      little-endian host, the identity on a big-endian one. */
  function Htons(e: Endian, x: u16): (y: u16)
  {
    if e.Little? then Swap16(x) else x
  }

  /** `htonl`. */
  function Htonl(e: Endian, x: u32): (y: u32)
  {
    if e.Little? then Swap32(x) else x
  }

  lemma Swap16Involutive(x: u16)
    ensures Swap16(Swap16(x)) == x
  {
    var hi: int, lo: int := x / 0x100, x % 0x100;
    assert x == hi * 0x100 + lo;
    var y: int := Swap16(x);
    assert y == lo * 0x100 + hi;
    assert y / 0x100 == lo && y % 0x100 == hi;
  }

  /** Applying htons twice gives back the value, on either byte order. */
  lemma HtonsInvolutive(e: Endian, x: u16)
    ensures Htons(e, Htons(e, x)) == x
  {
    Swap16Involutive(x);
  }

  /** Reading back a host-order store gives the stored value. */
  lemma HostValueOfHostBytes16(e: Endian, x: u16)
    ensures HostValue16(e, HostBytes16(e, x)) == x
  {
  }

  /** A 16-bit value converted with htons and stored in host order lies in
      memory in network (big-endian) byte order, whatever the host order. */
  lemma HtonsStoresNetworkOrder(e: Endian, x: u16)
    ensures HostBytes16(e, Htons(e, x)) == BigEndian16(x)
  {
  }

  /** The same for a 32-bit value converted with htonl. */
  lemma HtonlStoresNetworkOrder(e: Endian, x: u32)
    ensures HostBytes32(e, Htonl(e, x)) == BigEndian32(x)
  {
    if e.Little? {
      var hi: int, lo: int := Swap16(x % 0x1_0000), Swap16(x / 0x1_0000);
      assert Swap32(x) == hi * 0x1_0000 + lo;
      assert Swap32(x) % 0x1_0000 == lo;
      assert Swap32(x) / 0x1_0000 == hi;
      HtonsStoresNetworkOrder(e, x % 0x1_0000);
      HtonsStoresNetworkOrder(e, x / 0x1_0000);
    }
  }

  lemma FromBigEndian32Inverse(x: u32)
    ensures FromBigEndian32(BigEndian32(x)) == x
  {
    assert BigEndian32(x)[..2] == BigEndian16(x / 0x1_0000);
    assert BigEndian32(x)[2..] == BigEndian16(x % 0x1_0000);
  }
}

=== FILE: dispatch.dfy ===
/** The wait-and-dispatch cycle `listen` shared by both reactors: rebuild the
    `pollfd` array if stale, poll, then walk the array dispatching each slot
    that reported events. The two reactors differ only in what a readable
    server slot does, captured by `AcceptMode`.

    `poll`'s outcome is an input, and so is each server's queue of pending
    connections; callbacks are recorded as a trace of events. */
module Dispatch {
  import opened Basics
  import Handles
  import SockAddr
  import opened Registry

  const EINTR: int := 4

  /** Which of the five callbacks are set (a `std::function` may be empty). */
  datatype Handlers = Handlers(onAccept: bool, onReadable: bool, onHangup: bool, onWritable: bool, onError: bool)

  /** `Drain`: accept in a loop inside the dispatch step (`csocketpoll`).
      `Notify`: hand the server to the accept callback once (`csocketepoll`). */
  datatype AcceptMode = Drain | Notify

  /** One outcome of the `accept` system call on a server: the descriptor it
      returned, the `errno` left behind, and the peer address the kernel
      filled in. */
  datatype Conn = Conn(fd: i32, errno: int, addr: SockAddr.Storage)

  /** `accept(cli, addr) == 0`: the wrapper returns 0 for a positive
      descriptor and `-errno` otherwise, so a non-positive descriptor still
      counts as accepted when `errno` is 0. */
  predicate AcceptSucceeds(c: Conn)
  {
    c.fd > 0 || c.errno == 0
  }

  /** The drain loop's success test is the handle wrapper's result. */
  lemma AcceptSucceedsIsWrapperResult(st: Handles.Store, so: Handles.Handle, c: Conn)
    requires Handles.Valid(st) && Handles.Live(st, so)
    ensures Handles.Accept(st, so, c.fd, c.errno).2 == 0 <==> AcceptSucceeds(c)
  {
  }

  /** Pending `accept` outcomes per server descriptor; a missing or empty
      queue means `accept` fails (no connection waiting). */
  type Backlog = map<int, seq<Conn>>

  datatype Event =
    | Accepted(cli: i32, addr: SockAddr.Storage, server: Handles.Handle)
    | AcceptReady(server: Handles.Handle)
    | Readable(so: Handles.Handle)
    | Writable(so: Handles.Handle)
    | Hangup(so: Handles.Handle)
    | Errored(so: Handles.Handle)

  /** What `poll` returned: failure with `errno`, or the number of slots with
      events and the `revents` it wrote into each slot. */
  datatype PollResult = PollFailed(errno: int) | PollReady(count: nat, revents: seq<bv16>)

  /** The registered handle an event is about. */
  function Subject(ev: Event): (so: Handles.Handle)
  {
    match ev
    case Accepted(_, _, server) => server
    case AcceptReady(server) => server
    case Readable(so) => so
    case Writable(so) => so
    case Hangup(so) => so
    case Errored(so) => so
  }

  /** The position of an event's branch in the per-slot checks: readable or
      accept first, then writable, hangup, error. */
  function Rank(ev: Event): (k: nat)
  {
    match ev
    case Writable(_) => 1
    case Hangup(_) => 2
    case Errored(_) => 3
    case _ => 0
  }

  predicate Has(revents: bv16, bit: bv16)
  {
    revents & bit != 0
  }

  /** Hangup and error end a registration. */
  predicate Terminal(revents: bv16)
  {
    Has(revents, POLLHUP) || Has(revents, POLLERR)
  }

  function Min(a: int, b: int): (m: int)
  {
    if a <= b then a else b
  }

  function Pending(backlog: Backlog, fd: int): (q: seq<Conn>)
  {
    if fd in backlog then backlog[fd] else []
  }

  /** The `do { accept ... } while (1)` loop of `csocketpoll`: one callback
      per successful accept, stopping at the first failed one (which is
      consumed) or when nothing is pending. */
  function DrainAccepts(q: seq<Conn>, server: Handles.Handle): (r: (seq<Event>, seq<Conn>))
    ensures |r.0| <= |q|
    ensures forall i :: 0 <= i < |r.0| ==> AcceptSucceeds(q[i]) && r.0[i] == Accepted(q[i].fd, q[i].addr, server)
    ensures |r.0| < |q| ==> !AcceptSucceeds(q[|r.0|]) && r.1 == q[|r.0| + 1..]
    ensures |r.0| == |q| ==> r.1 == []
    decreases |q|
  {
    if |q| == 0 then ([], [])
    else if AcceptSucceeds(q[0]) then
      var (evs, rest) := DrainAccepts(q[1..], server);
      ([Accepted(q[0].fd, q[0].addr, server)] + evs, rest)
    else ([], q[1..])
  }

  /** N connections waiting, all acceptable: N callbacks, queue emptied. */
  lemma DrainTakesAll(q: seq<Conn>, server: Handles.Handle)
    requires forall i :: 0 <= i < |q| ==> AcceptSucceeds(q[i])
    ensures |DrainAccepts(q, server).0| == |q|
    ensures DrainAccepts(q, server).1 == []
  {
  }

  /** The POLLIN branch for a found entry: a client is reported readable; a
      server is drained or handed over, depending on the mode. */
  function ReadStep(mode: AcceptMode, h: Handlers, e: Entry, fd: int, backlog: Backlog): (r: (seq<Event>, Backlog))
    ensures forall k :: 0 <= k < |r.0| ==> Rank(r.0[k]) == 0 && Subject(r.0[k]) == e.sock
    ensures forall k :: 0 <= k < |r.0| ==>
              && (r.0[k].Readable? <==> !e.server)
              && (r.0[k].AcceptReady? <==> e.server && mode.Notify?)
              && (r.0[k].Accepted? <==> e.server && mode.Drain?)
    ensures (!e.server && h.onReadable) || (e.server && h.onAccept && mode.Notify?) ==> |r.0| == 1
    ensures (!e.server && !h.onReadable) || (e.server && !h.onAccept) ==> |r.0| == 0
    ensures r.1 != backlog ==> mode.Drain? && e.server && h.onAccept
  {
    if !e.server then (if h.onReadable then [Readable(e.sock)] else [], backlog)
    else if !h.onAccept then ([], backlog)
    else if mode.Notify? then ([AcceptReady(e.sock)], backlog)
    else
      var drained := DrainAccepts(Pending(backlog, fd), e.sock);
      (drained.0, if fd in backlog then backlog[fd := drained.1] else backlog)
  }

  /** The error branch. */
  function ErrorPart(h: Handlers, revents: bv16, sock: Handles.Handle): (t: seq<Event>)
    ensures |t| <= 1
    ensures forall k :: 0 <= k < |t| ==> t[k] == Errored(sock)
  {
    if Has(revents, POLLERR) && h.onError then [Errored(sock)] else []
  }

  /** The hangup and error branches. */
  function HangupPart(h: Handlers, revents: bv16, sock: Handles.Handle): (t: seq<Event>)
    ensures forall i, j :: 0 <= i < j < |t| ==> Rank(t[i]) < Rank(t[j])
    ensures forall k :: 0 <= k < |t| ==> Rank(t[k]) >= 2 && Subject(t[k]) == sock
  {
    var x := ErrorPart(h, revents, sock);
    if Has(revents, POLLHUP) && h.onHangup then [Hangup(sock)] + x else x
  }

  /** The writable, hangup and error branches, in that order. */
  function Tail(h: Handlers, revents: bv16, sock: Handles.Handle): (t: seq<Event>)
    ensures forall i, j :: 0 <= i < j < |t| ==> Rank(t[i]) < Rank(t[j])
    ensures forall k :: 0 <= k < |t| ==> Rank(t[k]) >= 1 && Subject(t[k]) == sock
  {
    var u := HangupPart(h, revents, sock);
    if Has(revents, POLLOUT) && h.onWritable then [Writable(sock)] + u else u
  }

  /** Each of the three later branches fires exactly when its bit is set
      and its callback present. */
  lemma TailCallbacks(h: Handlers, revents: bv16, sock: Handles.Handle)
    ensures Writable(sock) in Tail(h, revents, sock) <==> Has(revents, POLLOUT) && h.onWritable
    ensures Hangup(sock) in Tail(h, revents, sock) <==> Has(revents, POLLHUP) && h.onHangup
    ensures Errored(sock) in Tail(h, revents, sock) <==> Has(revents, POLLERR) && h.onError
  {
    var x := ErrorPart(h, revents, sock);
    var u := HangupPart(h, revents, sock);
    var t := Tail(h, revents, sock);
    assert Errored(sock) in x <==> Has(revents, POLLERR) && h.onError;
    assert Hangup(sock) !in x;
    assert Writable(sock) !in u;
    assert Errored(sock) in u <==> Errored(sock) in x;
    assert Errored(sock) in t <==> Errored(sock) in u;
    assert Hangup(sock) in t <==> Hangup(sock) in u;
  }

  /** The POLLIN branch when POLLIN was reported, else nothing. */
  function ReadPart(mode: AcceptMode, h: Handlers, p: PollFd, socks: Socks, backlog: Backlog): (r: (seq<Event>, Backlog))
    requires p.fd in socks
    ensures forall k :: 0 <= k < |r.0| ==> Rank(r.0[k]) == 0 && Subject(r.0[k]) == socks[p.fd].sock
    ensures r.1 != backlog ==> mode.Drain? && Has(p.revents, POLLIN) && socks[p.fd].server && h.onAccept
  {
    if Has(p.revents, POLLIN) then ReadStep(mode, h, socks[p.fd], p.fd, backlog) else ([], backlog)
  }

  /** The hangup branch erases the descriptor, then the error branch does. */
  function Erase(socks: Socks, p: PollFd): (s: Socks)
    ensures s == (if Terminal(p.revents) then socks - {p.fd} else socks)
  {
    var afterHangup := if Has(p.revents, POLLHUP) then socks - {p.fd} else socks;
    if Has(p.revents, POLLERR) then afterHangup - {p.fd} else afterHangup
  }

  datatype SlotOutcome = SlotOutcome(found: bool, socks: Socks, trace: seq<Event>, backlog: Backlog)

  /** One slot with events. Its descriptor is looked up; if absent the slot
      is dropped. Otherwise, in order: readable/accept, writable, hangup
      (then erase), error (then erase). The error callback gets the handle
      captured before any erase. */
  function Slot(mode: AcceptMode, h: Handlers, p: PollFd, socks: Socks, backlog: Backlog): (o: SlotOutcome)
    ensures o.found <==> p.fd in socks
    ensures !o.found ==> o.socks == socks && o.trace == [] && o.backlog == backlog
    ensures o.found ==> o.socks == (if Terminal(p.revents) then socks - {p.fd} else socks)
    ensures forall i, j :: 0 <= i < j < |o.trace| ==> Rank(o.trace[i]) <= Rank(o.trace[j])
    ensures o.found ==> forall k :: 0 <= k < |o.trace| ==> Subject(o.trace[k]) == socks[p.fd].sock
    ensures o.backlog != backlog ==>
              mode.Drain? && o.found && Has(p.revents, POLLIN) && socks[p.fd].server && h.onAccept
  {
    if p.fd !in socks then SlotOutcome(false, socks - {p.fd}, [], backlog)
    else
      var read := ReadPart(mode, h, p, socks, backlog);
      SlotOutcome(true, Erase(socks, p), read.0 + Tail(h, p.revents, socks[p.fd].sock), read.1)
  }

  /** A found slot's callbacks: the POLLIN part, then the tail. */
  lemma SlotTrace(mode: AcceptMode, h: Handlers, p: PollFd, socks: Socks, backlog: Backlog)
    requires p.fd in socks
    ensures Slot(mode, h, p, socks, backlog).trace
            == ReadPart(mode, h, p, socks, backlog).0 + Tail(h, p.revents, socks[p.fd].sock)
  {
  }

  /** In a trace made of POLLIN-branch events followed by later-branch
      events, each event is found in the part its branch belongs to. */
  lemma SplitMembership(t1: seq<Event>, t2: seq<Event>, x: Event)
    requires forall k :: 0 <= k < |t1| ==> Rank(t1[k]) == 0
    requires forall k :: 0 <= k < |t2| ==> Rank(t2[k]) >= 1
    ensures x in t1 + t2 <==> (if Rank(x) == 0 then x in t1 else x in t2)
  {
    if x in t1 + t2 {
      var k :| 0 <= k < |t1 + t2| && (t1 + t2)[k] == x;
      if k >= |t1| {
        assert x == t2[k - |t1|];
      }
    }
  }

  /** The writable, hangup and error callbacks of a found slot: each fires
      exactly when its bit is set and its callback present. */
  lemma SlotTailCallbacks(mode: AcceptMode, h: Handlers, p: PollFd, socks: Socks, backlog: Backlog)
    requires p.fd in socks
    ensures var o := Slot(mode, h, p, socks, backlog);
            var so := socks[p.fd].sock;
            && (Writable(so) in o.trace <==> Has(p.revents, POLLOUT) && h.onWritable)
            && (Hangup(so) in o.trace <==> Has(p.revents, POLLHUP) && h.onHangup)
            && (Errored(so) in o.trace <==> Has(p.revents, POLLERR) && h.onError)
  {
    var so := socks[p.fd].sock;
    var t1 := ReadPart(mode, h, p, socks, backlog).0;
    var t2 := Tail(h, p.revents, so);
    SlotTrace(mode, h, p, socks, backlog);
    TailCallbacks(h, p.revents, so);
    SplitMembership(t1, t2, Writable(so));
    SplitMembership(t1, t2, Hangup(so));
    SplitMembership(t1, t2, Errored(so));
  }

  /** The POLLIN callbacks of a found slot: readable only for a client, the
      accept notification only for a server under the notifying reactor. */
  lemma SlotReadCallbacks(mode: AcceptMode, h: Handlers, p: PollFd, socks: Socks, backlog: Backlog)
    requires p.fd in socks
    ensures var o := Slot(mode, h, p, socks, backlog);
            var so := socks[p.fd].sock;
            && (Readable(so) in o.trace <==> Has(p.revents, POLLIN) && !socks[p.fd].server && h.onReadable)
            && (AcceptReady(so) in o.trace
                <==> Has(p.revents, POLLIN) && socks[p.fd].server && h.onAccept && mode.Notify?)
  {
    var e := socks[p.fd];
    var t1 := ReadPart(mode, h, p, socks, backlog).0;
    var t2 := Tail(h, p.revents, e.sock);
    SlotTrace(mode, h, p, socks, backlog);
    SplitMembership(t1, t2, Readable(e.sock));
    SplitMembership(t1, t2, AcceptReady(e.sock));
    ReadPartNotifies(mode, h, p, socks, backlog);
  }

  /** The single-event cases of the POLLIN branch. */
  lemma ReadPartNotifies(mode: AcceptMode, h: Handlers, p: PollFd, socks: Socks, backlog: Backlog)
    requires p.fd in socks
    ensures var t1 := ReadPart(mode, h, p, socks, backlog).0;
            var so := socks[p.fd].sock;
            && (Readable(so) in t1 <==> Has(p.revents, POLLIN) && !socks[p.fd].server && h.onReadable)
            && (AcceptReady(so) in t1 <==> Has(p.revents, POLLIN) && socks[p.fd].server && h.onAccept && mode.Notify?)
  {
    var e := socks[p.fd];
    var t1 := ReadPart(mode, h, p, socks, backlog).0;
    if Has(p.revents, POLLIN) && ((!e.server && h.onReadable) || (e.server && h.onAccept && mode.Notify?)) {
      assert t1[0] in t1;
    }
  }

  /** Accept events match the reactor: the draining one reports accepted
      connections and never a bare notification; the notifying one only the
      notification. */
  ghost predicate ModeEvents(mode: AcceptMode, t: seq<Event>)
  {
    forall k :: 0 <= k < |t| ==>
      && (t[k].AcceptReady? ==> mode.Notify?)
      && (t[k].Accepted? ==> mode.Drain?)
  }

  lemma ModeEventsConcat(mode: AcceptMode, a: seq<Event>, b: seq<Event>)
    requires ModeEvents(mode, a) && ModeEvents(mode, b)
    ensures ModeEvents(mode, a + b)
  {
    forall k | 0 <= k < |a + b|
      ensures (a + b)[k] == if k < |a| then a[k] else b[k - |a|]
    {
    }
  }

  /** A slot's callbacks match its reactor, and the notifying reactor never
      consumes a pending connection. */
  lemma SlotModeEvents(mode: AcceptMode, h: Handlers, p: PollFd, socks: Socks, backlog: Backlog)
    ensures ModeEvents(mode, Slot(mode, h, p, socks, backlog).trace)
    ensures mode.Notify? ==> Slot(mode, h, p, socks, backlog).backlog == backlog
  {
    if p.fd in socks {
      var t1 := ReadPart(mode, h, p, socks, backlog).0;
      var t2 := Tail(h, p.revents, socks[p.fd].sock);
      assert ModeEvents(mode, t1);
      assert ModeEvents(mode, t2);
      ModeEventsConcat(mode, t1, t2);
    }
  }

  /** Accepted events followed by events of later branches: the accepted
      ones are exactly the prefix. */
  lemma AcceptedPrefix(acc: seq<Event>, rest: seq<Event>)
    requires forall k :: 0 <= k < |acc| ==> acc[k].Accepted?
    requires forall k :: 0 <= k < |rest| ==> Rank(rest[k]) >= 1
    ensures (acc + rest)[..|acc|] == acc
    ensures forall k :: 0 <= k < |acc + rest| ==> ((acc + rest)[k].Accepted? <==> k < |acc|)
  {
    var t := acc + rest;
    forall k | 0 <= k < |t|
      ensures t[k].Accepted? <==> k < |acc|
    {
      if k >= |acc| {
        assert t[k] == rest[k - |acc|];
      }
    }
  }

  lemma ReadPartDrains(h: Handlers, p: PollFd, socks: Socks, backlog: Backlog)
    requires p.fd in socks && socks[p.fd].server && h.onAccept && Has(p.revents, POLLIN)
    ensures ReadPart(Drain, h, p, socks, backlog).0 == DrainAccepts(Pending(backlog, p.fd), socks[p.fd].sock).0
  {
  }

  /** A drained server slot: its accept callbacks come first, one per
      successful accept and none after the first failure. */
  lemma SlotDrainsBacklog(h: Handlers, p: PollFd, socks: Socks, backlog: Backlog)
    requires p.fd in socks && socks[p.fd].server && h.onAccept && Has(p.revents, POLLIN)
    ensures var t := Slot(Drain, h, p, socks, backlog).trace;
            var acc := DrainAccepts(Pending(backlog, p.fd), socks[p.fd].sock).0;
            && t[..|acc|] == acc
            && (forall k :: 0 <= k < |t| ==> (t[k].Accepted? <==> k < |acc|))
  {
    var e := socks[p.fd];
    var t := Slot(Drain, h, p, socks, backlog).trace;
    var acc := DrainAccepts(Pending(backlog, p.fd), e.sock).0;
    var rest := Tail(h, p.revents, e.sock);
    SlotTrace(Drain, h, p, socks, backlog);
    ReadPartDrains(h, p, socks, backlog);
    assert t == acc + rest;
    assert forall k :: 0 <= k < |acc| ==> acc[k].Accepted?;
    assert forall k :: 0 <= k < |rest| ==> Rank(rest[k]) >= 1;
    AcceptedPrefix(acc, rest);
  }

  /** A drained server slot leaves in its queue what followed the first
      failed accept. */
  lemma SlotConsumesBacklog(h: Handlers, p: PollFd, socks: Socks, backlog: Backlog)
    requires p.fd in socks && socks[p.fd].server && h.onAccept && Has(p.revents, POLLIN)
    requires p.fd in backlog
    ensures Slot(Drain, h, p, socks, backlog).backlog
            == backlog[p.fd := DrainAccepts(backlog[p.fd], socks[p.fd].sock).1]
  {
    assert ReadPart(Drain, h, p, socks, backlog) == ReadStep(Drain, h, socks[p.fd], p.fd, backlog);
  }

  /** Without an accept callback a readable server slot attempts no accept
      and reports nothing before the writable branch. */
  lemma SlotWithoutAcceptHandler(mode: AcceptMode, h: Handlers, p: PollFd, socks: Socks, backlog: Backlog)
    requires p.fd in socks && socks[p.fd].server && !h.onAccept
    ensures Slot(mode, h, p, socks, backlog).backlog == backlog
    ensures forall k :: 0 <= k < |Slot(mode, h, p, socks, backlog).trace| ==>
              Rank(Slot(mode, h, p, socks, backlog).trace[k]) > 0
  {
    assert Slot(mode, h, p, socks, backlog).trace == Tail(h, p.revents, socks[p.fd].sock);
  }

  /** The notifying reactor: a readable server slot yields exactly one accept
      callback, first, with the server handle, and accepts nothing itself. */
  lemma SlotNotifiesOnce(h: Handlers, p: PollFd, socks: Socks, backlog: Backlog)
    requires p.fd in socks && socks[p.fd].server && h.onAccept && Has(p.revents, POLLIN)
    ensures var o := Slot(Notify, h, p, socks, backlog);
            && o.trace[0] == AcceptReady(socks[p.fd].sock)
            && (forall k :: 1 <= k < |o.trace| ==> Rank(o.trace[k]) > 0)
            && o.backlog == backlog
  {
    var so := socks[p.fd].sock;
    assert Slot(Notify, h, p, socks, backlog).trace == [AcceptReady(so)] + Tail(h, p.revents, so);
  }

  /** The entry the iterator `soh` designates when the error branch runs, as
      the loop is written: `soh` was found before the hangup branch erased
      the descriptor, so with both bits set it refers to an erased node. */
  function ErrorLookupAsWritten(socks: Socks, p: PollFd): (o: Option<Entry>)
    requires p.fd in socks
    ensures o.Some? <==> !Has(p.revents, POLLHUP)
    ensures o.Some? ==> o.value == socks[p.fd]
  {
    var afterHangup := if Has(p.revents, POLLHUP) then socks - {p.fd} else socks;
    if p.fd in afterHangup then Some(afterHangup[p.fd]) else None
  }

  /** Hangup and error reported together: the error callback would read a
      handle through an erased entry. */
  lemma HangupThenErrorDangles(socks: Socks, p: PollFd)
    requires p.fd in socks && Has(p.revents, POLLHUP) && Has(p.revents, POLLERR)
    ensures ErrorLookupAsWritten(socks, p).None?
  {
  }

  /** The number of slots with events among `a`. */
  function NonZero(a: seq<PollFd>): (k: nat)
  {
    if |a| == 0 then 0
    else NonZero(a[..|a| - 1]) + (if a[|a| - 1].revents != 0 then 1 else 0)
  }

  /** The loop reaches slot `j` and handles it: the slot has events and fewer
      than `n` (the count `poll` returned) slots with events precede it. */
  ghost predicate Visited(slots: seq<PollFd>, n: nat, j: int)
  {
    0 <= j < |slots| && slots[j].revents != 0 && NonZero(slots[..j]) < n
  }

  /** Descriptors of visited slots from `from` on that reported hangup or
      error. */
  ghost function Evicted(slots: seq<PollFd>, n: nat, from: nat): set<int>
  {
    set j | from <= j < |slots| && Visited(slots, n, j) && Terminal(slots[j].revents) :: slots[j].fd
  }

  datatype Fold = Fold(socks: Socks, trace: seq<Event>, backlog: Backlog, found: set<nat>, visited: nat)

  /** `for (s = 0; result && s < size; s++) if (revents) { --result; ... }`
      from slot `i`, `seen` slots with events already handled. */
  function Run(mode: AcceptMode, h: Handlers, slots: seq<PollFd>, n: nat, i: nat, seen: nat,
               socks: Socks, backlog: Backlog): (f: Fold)
    requires i <= |slots| && seen <= n
    ensures f.socks.Keys <= socks.Keys
    ensures forall k :: k in f.socks ==> f.socks[k] == socks[k]
    ensures forall j :: j in f.found ==> i <= j < |slots| && slots[j].revents != 0
    decreases |slots| - i
  {
    if seen == n || i == |slots| then Fold(socks, [], backlog, {}, 0)
    else if slots[i].revents == 0 then Run(mode, h, slots, n, i + 1, seen, socks, backlog)
    else
      var o := Slot(mode, h, slots[i], socks, backlog);
      var f := Run(mode, h, slots, n, i + 1, seen + 1, o.socks, o.backlog);
      Fold(f.socks, o.trace + f.trace, f.backlog, if o.found then f.found + {i} else f.found, f.visited + 1)
  }

  /** `so` is the handle of some registration in `socks`. */
  ghost predicate Registered(socks: Socks, so: Handles.Handle)
  {
    exists fd :: fd in socks && socks[fd].sock == so
  }

  /** Every event of `t` is about a handle registered in `socks`. */
  ghost predicate AboutRegistered(socks: Socks, t: seq<Event>)
  {
    forall k :: 0 <= k < |t| ==> Registered(socks, Subject(t[k]))
  }

  lemma AboutRegisteredWidens(smaller: Socks, socks: Socks, t: seq<Event>)
    requires forall fd :: fd in smaller ==> fd in socks && smaller[fd] == socks[fd]
    requires AboutRegistered(smaller, t)
    ensures AboutRegistered(socks, t)
  {
    forall k | 0 <= k < |t|
      ensures Registered(socks, Subject(t[k]))
    {
      assert Registered(smaller, Subject(t[k]));
      var fd :| fd in smaller && smaller[fd].sock == Subject(t[k]);
      assert socks[fd].sock == Subject(t[k]);
    }
  }

  lemma AboutRegisteredConcat(socks: Socks, a: seq<Event>, b: seq<Event>)
    requires AboutRegistered(socks, a) && AboutRegistered(socks, b)
    ensures AboutRegistered(socks, a + b)
  {
    forall k | 0 <= k < |a + b|
      ensures (a + b)[k] == if k < |a| then a[k] else b[k - |a|]
    {
    }
  }

  /** Every callback of the loop is about a handle registered when the loop
      started. */
  lemma {:induction false} RunSubjects(mode: AcceptMode, h: Handlers, slots: seq<PollFd>, n: nat, i: nat, seen: nat,
                                      socks: Socks, backlog: Backlog)
    requires i <= |slots| && seen <= n
    ensures AboutRegistered(socks, Run(mode, h, slots, n, i, seen, socks, backlog).trace)
    decreases |slots| - i
  {
    if seen == n || i == |slots| {
    } else if slots[i].revents == 0 {
      RunSubjects(mode, h, slots, n, i + 1, seen, socks, backlog);
    } else {
      var o := Slot(mode, h, slots[i], socks, backlog);
      RunSubjects(mode, h, slots, n, i + 1, seen + 1, o.socks, o.backlog);
      var f := Run(mode, h, slots, n, i + 1, seen + 1, o.socks, o.backlog);
      AboutRegisteredWidens(o.socks, socks, f.trace);
      if o.found {
        var fd := slots[i].fd;
        assert forall k :: 0 <= k < |o.trace| ==> Subject(o.trace[k]) == socks[fd].sock;
      }
      assert AboutRegistered(socks, o.trace);
      AboutRegisteredConcat(socks, o.trace, f.trace);
    }
  }

  lemma {:induction false} NonZeroPrefixStep(slots: seq<PollFd>, i: nat)
    requires i < |slots|
    ensures NonZero(slots[..i + 1]) == NonZero(slots[..i]) + (if slots[i].revents != 0 then 1 else 0)
  {
    assert slots[..i + 1][..i] == slots[..i];
  }

  lemma {:induction false} NonZeroMonotone(slots: seq<PollFd>, i: nat, j: nat)
    requires i <= j <= |slots|
    ensures NonZero(slots[..i]) <= NonZero(slots[..j])
    ensures NonZero(slots[..j]) <= NonZero(slots)
    decreases |slots| - i
  {
    assert slots[..|slots|] == slots;
    if i < j {
      NonZeroPrefixStep(slots, i);
      NonZeroMonotone(slots, i + 1, j);
    } else if j < |slots| {
      NonZeroPrefixStep(slots, j);
      NonZeroMonotone(slots, j + 1, |slots|);
    }
  }

  /** The loop handles exactly `min(n, slots with events)` slots. */
  lemma {:induction false} RunVisitCount(mode: AcceptMode, h: Handlers, slots: seq<PollFd>, n: nat, i: nat, seen: nat,
                                        socks: Socks, backlog: Backlog)
    requires i <= |slots| && seen <= n && seen == NonZero(slots[..i])
    ensures Run(mode, h, slots, n, i, seen, socks, backlog).visited == Min(n, NonZero(slots)) - seen
    decreases |slots| - i
  {
    NonZeroMonotone(slots, i, |slots|);
    if seen == n || i == |slots| {
      assert slots[..|slots|] == slots;
    } else {
      NonZeroPrefixStep(slots, i);
      if slots[i].revents == 0 {
        RunVisitCount(mode, h, slots, n, i + 1, seen, socks, backlog);
      } else {
        var o := Slot(mode, h, slots[i], socks, backlog);
        RunVisitCount(mode, h, slots, n, i + 1, seen + 1, o.socks, o.backlog);
      }
    }
  }

  /** Once `n` slots with events have been handled, no later slot is. */
  lemma EvictedNone(slots: seq<PollFd>, n: nat, i: nat)
    requires i == |slots| || (i < |slots| && n <= NonZero(slots[..i]))
    ensures Evicted(slots, n, i) == {}
  {
    forall j | i <= j < |slots|
      ensures !Visited(slots, n, j)
    {
      NonZeroMonotone(slots, i, j);
    }
  }

  /** A slot's registry effect: its descriptor goes when hangup or error
      was reported, whether or not it was still registered. */
  lemma SlotRemoves(mode: AcceptMode, h: Handlers, p: PollFd, socks: Socks, backlog: Backlog)
    ensures Slot(mode, h, p, socks, backlog).socks == socks - (if Terminal(p.revents) then {p.fd} else {})
  {
    if p.fd !in socks {
      assert socks - {p.fd} == socks;
    }
  }

  lemma MinusTwice(m: Socks, a: set<int>, b: set<int>)
    ensures (m - a) - b == m - (a + b)
  {
  }

  /** Peeling slot `i` off the evicted set. */
  lemma EvictedStep(slots: seq<PollFd>, n: nat, i: nat)
    requires i < |slots| && NonZero(slots[..i]) < n
    ensures Evicted(slots, n, i)
            == (if Terminal(slots[i].revents) then {slots[i].fd} else {}) + Evicted(slots, n, i + 1)
  {
    if Terminal(slots[i].revents) {
      assert slots[i].revents != 0 by {
        assert slots[i].revents & POLLHUP != 0 || slots[i].revents & POLLERR != 0;
      }
      assert Visited(slots, n, i);
    }
  }

  /** The registry after the loop is the registry before it minus exactly
      the descriptors of handled slots that reported hangup or error. */
  lemma {:induction false} RunEvicts(mode: AcceptMode, h: Handlers, slots: seq<PollFd>, n: nat, i: nat, seen: nat,
                                    socks: Socks, backlog: Backlog)
    requires i <= |slots| && seen <= n && seen == NonZero(slots[..i])
    ensures Run(mode, h, slots, n, i, seen, socks, backlog).socks == socks - Evicted(slots, n, i)
    decreases |slots| - i
  {
    if seen == n || i == |slots| {
      EvictedNone(slots, n, i);
    } else {
      NonZeroPrefixStep(slots, i);
      EvictedStep(slots, n, i);
      if slots[i].revents == 0 {
        RunEvicts(mode, h, slots, n, i + 1, seen, socks, backlog);
      } else {
        var o := Slot(mode, h, slots[i], socks, backlog);
        RunEvicts(mode, h, slots, n, i + 1, seen + 1, o.socks, o.backlog);
        SlotRemoves(mode, h, slots[i], socks, backlog);
        MinusTwice(socks, if Terminal(slots[i].revents) then {slots[i].fd} else {}, Evicted(slots, n, i + 1));
      }
    }
  }

  /** The loop-level form of `SlotModeEvents`. */
  lemma {:induction false} RunModeEvents(mode: AcceptMode, h: Handlers, slots: seq<PollFd>, n: nat, i: nat, seen: nat,
                                        socks: Socks, backlog: Backlog)
    requires i <= |slots| && seen <= n
    ensures ModeEvents(mode, Run(mode, h, slots, n, i, seen, socks, backlog).trace)
    ensures mode.Notify? ==> Run(mode, h, slots, n, i, seen, socks, backlog).backlog == backlog
    decreases |slots| - i
  {
    if seen == n || i == |slots| {
    } else if slots[i].revents == 0 {
      RunModeEvents(mode, h, slots, n, i + 1, seen, socks, backlog);
    } else {
      var o := Slot(mode, h, slots[i], socks, backlog);
      SlotModeEvents(mode, h, slots[i], socks, backlog);
      RunModeEvents(mode, h, slots, n, i + 1, seen + 1, o.socks, o.backlog);
      ModeEventsConcat(mode, o.trace, Run(mode, h, slots, n, i + 1, seen + 1, o.socks, o.backlog).trace);
    }
  }

  /** The array after `poll` wrote its `revents`. */
  function WithRevents(a: seq<PollFd>, revents: seq<bv16>): (b: seq<PollFd>)
    requires |revents| == |a|
    ensures |b| == |a|
    ensures forall j :: 0 <= j < |a| ==> b[j] == a[j].(revents := revents[j])
  {
    seq(|a|, j requires 0 <= j < |a| => a[j].(revents := revents[j]))
  }

  /** The array after the loop: `revents` reset in the slots whose entry was
      found. */
  function Cleared(a: seq<PollFd>, found: set<nat>): (b: seq<PollFd>)
    ensures |b| == |a|
    ensures forall j :: 0 <= j < |a| ==> b[j].fd == a[j].fd && b[j].events == a[j].events
    ensures forall j :: 0 <= j < |a| ==> b[j].revents == (if j in found then 0 else a[j].revents)
  {
    seq(|a|, j requires 0 <= j < |a| => if j in found then a[j].(revents := 0) else a[j])
  }

  datatype Cycle = Cycle(reactor: Reactor, result: int, trace: seq<Event>, backlog: Backlog)

  /** `listen(milliseconds)`. An empty registry returns -1 at once. The
      array is brought up to date, `poll` runs, the slots are dispatched,
      and the result is `poll`'s count, 0 after EINTR, or `-errno`. The
      timeout only reaches `poll`, whose outcome is given. */
  function Listen(mode: AcceptMode, h: Handlers, r: Reactor, order: seq<int>, poll: PollResult,
                  backlog: Backlog): (c: Cycle)
    requires IsEnumeration(order, r.socks.Keys)
    requires poll.PollReady? ==> |poll.revents| == |r.socks|
    ensures |r.socks| == 0 ==> c == Cycle(r, -1, [], backlog)
    ensures |r.socks| > 0 && poll.PollFailed? ==>
              c.result == (if poll.errno == EINTR then 0 else -poll.errno)
              && c.trace == [] && c.reactor.socks == r.socks && c.backlog == backlog
    ensures |r.socks| > 0 && poll.PollReady? ==> c.result == poll.count
    ensures |r.socks| > 0 && poll.PollReady? && poll.count == 0 ==>
              c.trace == [] && c.reactor.socks == r.socks && c.backlog == backlog
    ensures |r.socks| > 0 && poll.PollFailed? ==> c.reactor.pollfd == Prepare(r, order)
    ensures |r.socks| > 0 && poll.PollReady? && poll.count == 0 ==>
              c.reactor.pollfd == Polled(r, order, poll.revents)
    ensures |r.socks| > 0 ==> |c.reactor.pollfd| == |r.socks|
    ensures c.reactor.socks.Keys <= r.socks.Keys
    ensures forall k :: k in c.reactor.socks ==> c.reactor.socks[k] == r.socks[k]
    ensures DistinctFds(r.pollfd) ==> DistinctFds(c.reactor.pollfd)
  {
    if |r.socks| == 0 then Cycle(r, -1, [], backlog)
    else
      var a := Prepare(r, order);
      match poll
      case PollFailed(errno) =>
        Cycle(Reactor(r.socks, a), if errno == EINTR then 0 else -errno, [], backlog)
      case PollReady(n, revents) =>
        var slots := WithRevents(a, revents);
        if n > 0 then
          var f := Run(mode, h, slots, n, 0, 0, r.socks, backlog);
          Cycle(Reactor(f.socks, Cleared(slots, f.found)), n, f.trace, f.backlog)
        else
          Cycle(Reactor(r.socks, slots), n, [], backlog)
  }

  /** The slots `listen` dispatches over: the (possibly rebuilt) array with
      `poll`'s `revents` in place. */
  function Polled(r: Reactor, order: seq<int>, revents: seq<bv16>): (slots: seq<PollFd>)
    requires IsEnumeration(order, r.socks.Keys) && |revents| == |r.socks|
    ensures |slots| == |r.socks|
    ensures forall j :: 0 <= j < |slots| ==> slots[j].revents == revents[j]
  {
    WithRevents(Prepare(r, order), revents)
  }

  /** After a cycle the registry lacks exactly the descriptors of handled
      slots that reported hangup or error; every other entry is kept. */
  lemma ListenEvicts(mode: AcceptMode, h: Handlers, r: Reactor, order: seq<int>, n: nat,
                     revents: seq<bv16>, backlog: Backlog)
    requires IsEnumeration(order, r.socks.Keys) && |revents| == |r.socks| && |r.socks| > 0
    ensures Listen(mode, h, r, order, PollReady(n, revents), backlog).reactor.socks
            == r.socks - Evicted(Polled(r, order, revents), n, 0)
  {
    var slots := Polled(r, order, revents);
    assert slots[..0] == [];
    if n > 0 {
      RunEvicts(mode, h, slots, n, 0, 0, r.socks, backlog);
    } else {
      assert Evicted(slots, n, 0) == {};
    }
  }

  /** A handled slot that reported hangup or error has its descriptor gone
      from the registry when the cycle returns; a handled slot without them,
      whose descriptor is in no other slot, keeps its entry. */
  lemma ListenTerminalSlots(mode: AcceptMode, h: Handlers, r: Reactor, order: seq<int>, n: nat,
                            revents: seq<bv16>, backlog: Backlog, j: nat)
    requires IsEnumeration(order, r.socks.Keys) && |revents| == |r.socks| && |r.socks| > 0
    requires DistinctFds(r.pollfd)
    requires j < |r.socks| && Visited(Polled(r, order, revents), n, j)
    ensures var slots := Polled(r, order, revents);
            var after := Listen(mode, h, r, order, PollReady(n, revents), backlog).reactor.socks;
            && (Terminal(revents[j]) ==> slots[j].fd !in after)
            && (!Terminal(revents[j]) && slots[j].fd in r.socks ==> slots[j].fd in after)
  {
    var slots := Polled(r, order, revents);
    ListenEvicts(mode, h, r, order, n, revents, backlog);
    assert DistinctFds(slots) by {
      assert DistinctFds(Prepare(r, order));
    }
    if Terminal(revents[j]) {
      assert slots[j].fd in Evicted(slots, n, 0);
    } else {
      forall j' | 0 <= j' < |slots| && Visited(slots, n, j') && Terminal(slots[j'].revents)
        ensures slots[j'].fd != slots[j].fd
      {
      }
    }
  }

  /** `listen` handles exactly as many slots as `poll` reported (or as have
      events, if fewer), then stops. */
  lemma ListenVisitCount(mode: AcceptMode, h: Handlers, r: Reactor, order: seq<int>, n: nat,
                         revents: seq<bv16>, backlog: Backlog)
    requires IsEnumeration(order, r.socks.Keys) && |revents| == |r.socks| && |r.socks| > 0 && n > 0
    ensures var slots := Polled(r, order, revents);
            Run(mode, h, slots, n, 0, 0, r.socks, backlog).visited == Min(n, NonZero(slots))
  {
    var slots := Polled(r, order, revents);
    assert slots[..0] == [];
    RunVisitCount(mode, h, slots, n, 0, 0, r.socks, backlog);
  }

  /** The value `listen` returns depends only on the registry being empty
      and on `poll`'s outcome, never on callbacks or the accept strategy. */
  lemma ListenResultIgnoresCallbacks(m1: AcceptMode, m2: AcceptMode, h1: Handlers, h2: Handlers, r: Reactor,
                                     order: seq<int>, poll: PollResult, b1: Backlog, b2: Backlog)
    requires IsEnumeration(order, r.socks.Keys)
    requires poll.PollReady? ==> |poll.revents| == |r.socks|
    ensures Listen(m1, h1, r, order, poll, b1).result == Listen(m2, h2, r, order, poll, b2).result
  {
  }

  /** The cycle-level form of `SlotModeEvents`. */
  lemma ListenModeEvents(mode: AcceptMode, h: Handlers, r: Reactor, order: seq<int>, poll: PollResult,
                         backlog: Backlog)
    requires IsEnumeration(order, r.socks.Keys)
    requires poll.PollReady? ==> |poll.revents| == |r.socks|
    ensures ModeEvents(mode, Listen(mode, h, r, order, poll, backlog).trace)
    ensures mode.Notify? ==> Listen(mode, h, r, order, poll, backlog).backlog == backlog
  {
    if |r.socks| > 0 && poll.PollReady? && poll.count > 0 {
      var slots := Polled(r, order, poll.revents);
      RunModeEvents(mode, h, slots, poll.count, 0, 0, r.socks, backlog);
    }
  }

  /** A one-slot array whose slot has events: the loop handles that slot
      and stops. */
  lemma RunSingle(mode: AcceptMode, h: Handlers, slots: seq<PollFd>, socks: Socks, backlog: Backlog)
    requires |slots| == 1 && slots[0].revents != 0
    ensures var f := Run(mode, h, slots, 1, 0, 0, socks, backlog);
            var o := Slot(mode, h, slots[0], socks, backlog);
            f.trace == o.trace && f.socks == o.socks && f.backlog == o.backlog
  {
    var o := Slot(mode, h, slots[0], socks, backlog);
    assert Run(mode, h, slots, 1, 1, 1, o.socks, o.backlog) == Fold(o.socks, [], o.backlog, {}, 0);
  }

  /** A registry of one descriptor whose array is current: the cycle's
      callbacks and registry effect are those of its single slot. */
  lemma SingleSlotCycle(mode: AcceptMode, h: Handlers, r: Reactor, order: seq<int>, rev: bv16, backlog: Backlog)
    requires |r.socks| == 1 && IsEnumeration(order, r.socks.Keys)
    requires |r.pollfd| == |r.socks| ==> FdSet(r.pollfd) == r.socks.Keys
    ensures var slots := Polled(r, order, [rev]);
            var c := Listen(mode, h, r, order, PollReady(1, [rev]), backlog);
            var o := Slot(mode, h, slots[0], r.socks, backlog);
            && slots[0].fd in r.socks
            && (rev != 0 ==> c.trace == o.trace && c.reactor.socks == o.socks && c.backlog == o.backlog)
            && c.result == 1
  {
    var a := Prepare(r, order);
    assert a[0].fd in FdSet(a);
    var slots := Polled(r, order, [rev]);
    if rev != 0 {
      RunSingle(mode, h, slots, r.socks, backlog);
    }
  }

  /** Every callback of a cycle is about a handle registered when the cycle
      started. */
  lemma ListenSubjects(mode: AcceptMode, h: Handlers, r: Reactor, order: seq<int>, poll: PollResult,
                       backlog: Backlog)
    requires IsEnumeration(order, r.socks.Keys)
    requires poll.PollReady? ==> |poll.revents| == |r.socks|
    ensures AboutRegistered(r.socks, Listen(mode, h, r, order, poll, backlog).trace)
  {
    if |r.socks| > 0 && poll.PollReady? && poll.count > 0 {
      RunSubjects(mode, h, Polled(r, order, poll.revents), poll.count, 0, 0, r.socks, backlog);
    }
  }

  // An independent account of the loop: take the slots that reported events,
  // in array order, keep the first `n`, and dispatch them one after another.

  /** The indices from `i` on whose slot reported events, in increasing order. */
  function Active(slots: seq<PollFd>, i: nat): (idx: seq<nat>)
    requires i <= |slots|
    ensures forall k :: 0 <= k < |idx| ==> i <= idx[k] < |slots| && slots[idx[k]].revents != 0
    ensures forall k, l :: 0 <= k < l < |idx| ==> idx[k] < idx[l]
    decreases |slots| - i
  {
    if i == |slots| then []
    else if slots[i].revents != 0 then [i] + Active(slots, i + 1)
    else Active(slots, i + 1)
  }

  /** A slot with events at or after `i` sits in `Active(slots, i)` at the
      position given by the number of slots with events between `i` and it. */
  lemma {:induction false} ActiveAt(slots: seq<PollFd>, i: nat, j: nat)
    requires i <= j < |slots| && slots[j].revents != 0
    ensures NonZero(slots[..i]) <= NonZero(slots[..j])
    ensures NonZero(slots[..j]) - NonZero(slots[..i]) < |Active(slots, i)|
    ensures Active(slots, i)[NonZero(slots[..j]) - NonZero(slots[..i])] == j
    decreases j - i
  {
    NonZeroPrefixStep(slots, i);
    if i < j {
      ActiveAt(slots, i + 1, j);
    }
  }

  /** The slots one cycle handles: the first `n` that reported events. */
  function Visits(slots: seq<PollFd>, n: nat): (idx: seq<nat>)
    ensures forall k :: 0 <= k < |idx| ==> idx[k] < |slots| && slots[idx[k]].revents != 0
    ensures forall k, l :: 0 <= k < l < |idx| ==> idx[k] < idx[l]
    ensures |idx| <= n
  {
    var a := Active(slots, 0);
    a[..Min(n, |a|)]
  }

  /** `Visits` lists exactly the slots `Visited` describes, each at the
      position given by the number of earlier slots with events. */
  lemma VisitsAreVisited(slots: seq<PollFd>, n: nat)
    ensures forall k :: 0 <= k < |Visits(slots, n)| ==> Visited(slots, n, Visits(slots, n)[k])
    ensures forall j :: Visited(slots, n, j) ==>
              NonZero(slots[..j]) < |Visits(slots, n)| && Visits(slots, n)[NonZero(slots[..j])] == j
  {
    assert slots[..0] == [];
    var v := Visits(slots, n);
    forall k | 0 <= k < |v|
      ensures Visited(slots, n, v[k])
    {
      ActiveAt(slots, 0, v[k]);
    }
    forall j | Visited(slots, n, j)
      ensures NonZero(slots[..j]) < |v| && v[NonZero(slots[..j])] == j
    {
      ActiveAt(slots, 0, j);
    }
  }

  datatype Step = Step(socks: Socks, trace: seq<Event>, backlog: Backlog, found: set<nat>)

  /** The slots at `idx` dispatched in order, each seeing the registry and
      queues the previous ones left; `found` collects those whose
      descriptor was still registered. */
  function DispatchAll(mode: AcceptMode, h: Handlers, slots: seq<PollFd>, idx: seq<nat>,
                       socks: Socks, backlog: Backlog): (d: Step)
    requires forall k :: 0 <= k < |idx| ==> idx[k] < |slots|
    ensures forall j :: j in d.found ==> j in idx
    decreases |idx|
  {
    if |idx| == 0 then Step(socks, [], backlog, {})
    else
      var o := Slot(mode, h, slots[idx[0]], socks, backlog);
      var d := DispatchAll(mode, h, slots, idx[1..], o.socks, o.backlog);
      Step(d.socks, o.trace + d.trace, d.backlog, if o.found then d.found + {idx[0]} else d.found)
  }

  /** Taking `m >= 1` elements of `[i] + rest` takes `i`, then `m - 1` of
      `rest`. */
  lemma TakeCons(i: nat, rest: seq<nat>, m: nat)
    requires m >= 1
    ensures ([i] + rest)[..Min(m, 1 + |rest|)] == [i] + rest[..Min(m - 1, |rest|)]
  {
  }

  /** One step of the in-order dispatch. */
  lemma DispatchAllCons(mode: AcceptMode, h: Handlers, slots: seq<PollFd>, i: nat, rest: seq<nat>,
                        socks: Socks, backlog: Backlog)
    requires i < |slots| && forall k :: 0 <= k < |rest| ==> rest[k] < |slots|
    ensures var o := Slot(mode, h, slots[i], socks, backlog);
            var d := DispatchAll(mode, h, slots, rest, o.socks, o.backlog);
            DispatchAll(mode, h, slots, [i] + rest, socks, backlog)
            == Step(d.socks, o.trace + d.trace, d.backlog, if o.found then d.found + {i} else d.found)
  {
    assert ([i] + rest)[0] == i && ([i] + rest)[1..] == rest;
  }

  /** The counting loop from slot `i`, with `seen` slots already handled,
      makes the callbacks, registry, queues and found set of the in-order
      dispatch of the next `n - seen` slots with events. */
  ghost predicate RunAgrees(mode: AcceptMode, h: Handlers, slots: seq<PollFd>, n: nat, i: nat, seen: nat,
                            socks: Socks, backlog: Backlog)
    requires i <= |slots| && seen <= n
  {
    var f := Run(mode, h, slots, n, i, seen, socks, backlog);
    var a := Active(slots, i);
    var d := DispatchAll(mode, h, slots, a[..Min(n - seen, |a|)], socks, backlog);
    f.trace == d.trace && f.socks == d.socks && f.backlog == d.backlog && f.found == d.found
  }

  /** One step of the counting loop on a slot with events. */
  lemma RunCons(mode: AcceptMode, h: Handlers, slots: seq<PollFd>, n: nat, i: nat, seen: nat,
                socks: Socks, backlog: Backlog)
    requires i < |slots| && seen < n && slots[i].revents != 0
    ensures var o := Slot(mode, h, slots[i], socks, backlog);
            var g := Run(mode, h, slots, n, i + 1, seen + 1, o.socks, o.backlog);
            Run(mode, h, slots, n, i, seen, socks, backlog)
            == Fold(g.socks, o.trace + g.trace, g.backlog, if o.found then g.found + {i} else g.found, g.visited + 1)
  {
  }

  /** On a slot with events, the active indices start with that slot. */
  lemma ActiveCons(slots: seq<PollFd>, i: nat)
    requires i < |slots| && slots[i].revents != 0
    ensures Active(slots, i) == [i] + Active(slots, i + 1)
  {
  }

  /** The agreement carries back over a slot with events. */
  lemma RunAgreesStep(mode: AcceptMode, h: Handlers, slots: seq<PollFd>, n: nat, i: nat, seen: nat,
                      socks: Socks, backlog: Backlog)
    requires i < |slots| && seen < n && slots[i].revents != 0
    requires var o := Slot(mode, h, slots[i], socks, backlog);
             RunAgrees(mode, h, slots, n, i + 1, seen + 1, o.socks, o.backlog)
    ensures RunAgrees(mode, h, slots, n, i, seen, socks, backlog)
  {
    var o := Slot(mode, h, slots[i], socks, backlog);
    var a' := Active(slots, i + 1);
    var rest := a'[..Min(n - (seen + 1), |a'|)];
    var a := Active(slots, i);
    assert a[..Min(n - seen, |a|)] == [i] + rest by {
      ActiveCons(slots, i);
      TakeCons(i, a', n - seen);
    }
    RunCons(mode, h, slots, n, i, seen, socks, backlog);
    DispatchAllCons(mode, h, slots, i, rest, socks, backlog);
  }

  /** The counting loop from slot `i`, with `seen` slots already handled, is
      the in-order dispatch of the next `n - seen` slots with events. */
  lemma {:induction false} RunIsDispatchAll(mode: AcceptMode, h: Handlers, slots: seq<PollFd>, n: nat, i: nat,
                                            seen: nat, socks: Socks, backlog: Backlog)
    requires i <= |slots| && seen <= n
    ensures RunAgrees(mode, h, slots, n, i, seen, socks, backlog)
    decreases |slots| - i
  {
    if seen == n || i == |slots| {
      var a := Active(slots, i);
      assert a[..Min(n - seen, |a|)] == [];
    } else if slots[i].revents == 0 {
      RunIsDispatchAll(mode, h, slots, n, i + 1, seen, socks, backlog);
      assert Active(slots, i) == Active(slots, i + 1);
    } else {
      var o := Slot(mode, h, slots[i], socks, backlog);
      RunIsDispatchAll(mode, h, slots, n, i + 1, seen + 1, o.socks, o.backlog);
      RunAgreesStep(mode, h, slots, n, i, seen, socks, backlog);
    }
  }

  /** A cycle's callbacks, registry and queues are those of dispatching the
      visited slots one after another. */
  lemma ListenDispatchesVisits(mode: AcceptMode, h: Handlers, r: Reactor, order: seq<int>, n: nat,
                               revents: seq<bv16>, backlog: Backlog)
    requires IsEnumeration(order, r.socks.Keys) && |revents| == |r.socks| && |r.socks| > 0 && n > 0
    ensures var slots := Polled(r, order, revents);
            var d := DispatchAll(mode, h, slots, Visits(slots, n), r.socks, backlog);
            var c := Listen(mode, h, r, order, PollReady(n, revents), backlog);
            && c.trace == d.trace && c.reactor.socks == d.socks && c.backlog == d.backlog
            && c.reactor.pollfd == Cleared(slots, d.found)
  {
    var slots := Polled(r, order, revents);
    RunIsDispatchAll(mode, h, slots, n, 0, 0, r.socks, backlog);
  }

  /** `s` occurs in `t` as one contiguous run. */
  ghost predicate Infix(t: seq<Event>, s: seq<Event>)
  {
    exists i, j :: 0 <= i <= j <= |t| && t[i..j] == s
  }

  lemma InfixOfPrefix(a: seq<Event>, b: seq<Event>, s: seq<Event>)
    requires |s| <= |a| && a[..|s|] == s
    ensures Infix(a + b, s)
  {
    assert (a + b)[0..|s|] == s;
  }

  lemma InfixOfSuffix(a: seq<Event>, b: seq<Event>, s: seq<Event>)
    requires Infix(b, s)
    ensures Infix(a + b, s)
  {
    var i, j :| 0 <= i <= j <= |b| && b[i..j] == s;
    assert (a + b)[|a| + i..|a| + j] == s;
  }

  /** A slot touches no queue but its own descriptor's. */
  lemma SlotBacklogFrame(mode: AcceptMode, h: Handlers, p: PollFd, socks: Socks, backlog: Backlog, fd: int)
    requires fd != p.fd
    ensures Pending(Slot(mode, h, p, socks, backlog).backlog, fd) == Pending(backlog, fd)
  {
    if p.fd in socks {
      assert ReadPart(mode, h, p, socks, backlog).1 == backlog
             || ReadPart(mode, h, p, socks, backlog) == ReadStep(mode, h, socks[p.fd], p.fd, backlog);
    }
  }

  /** A drained server slot leaves in its own queue what the drain loop left,
      whether or not a queue was recorded for it. */
  lemma SlotDrainPending(h: Handlers, p: PollFd, socks: Socks, backlog: Backlog)
    requires p.fd in socks && socks[p.fd].server && h.onAccept && Has(p.revents, POLLIN)
    ensures Pending(Slot(Drain, h, p, socks, backlog).backlog, p.fd)
            == DrainAccepts(Pending(backlog, p.fd), socks[p.fd].sock).1
  {
    assert ReadPart(Drain, h, p, socks, backlog) == ReadStep(Drain, h, socks[p.fd], p.fd, backlog);
  }

  /** An in-order dispatch touches no queue of a descriptor it does not visit. */
  lemma {:induction false} DispatchAllBacklogFrame(mode: AcceptMode, h: Handlers, slots: seq<PollFd>, idx: seq<nat>,
                                                   socks: Socks, backlog: Backlog, fd: int)
    requires forall l :: 0 <= l < |idx| ==> idx[l] < |slots| && slots[idx[l]].fd != fd
    ensures Pending(DispatchAll(mode, h, slots, idx, socks, backlog).backlog, fd) == Pending(backlog, fd)
    decreases |idx|
  {
    if |idx| > 0 {
      var o := Slot(mode, h, slots[idx[0]], socks, backlog);
      SlotBacklogFrame(mode, h, slots[idx[0]], socks, backlog, fd);
      DispatchAllBacklogFrame(mode, h, slots, idx[1..], o.socks, o.backlog, fd);
    }
  }

  /** Within an in-order dispatch over distinct descriptors, each slot whose
      descriptor is registered at the start makes every callback its own
      revents and handlers call for, whatever the other slots do; a drained
      server's accepts appear as one run, and its queue ends as the drain
      loop left it. */
  lemma {:induction false} DispatchAllReports(mode: AcceptMode, h: Handlers, slots: seq<PollFd>, idx: seq<nat>,
                                              socks: Socks, backlog: Backlog, k: nat)
    requires forall l :: 0 <= l < |idx| ==> idx[l] < |slots|
    requires forall l, m :: 0 <= l < m < |idx| ==> slots[idx[l]].fd != slots[idx[m]].fd
    requires k < |idx| && slots[idx[k]].fd in socks
    ensures var p := slots[idx[k]];
            var e := socks[p.fd];
            var d := DispatchAll(mode, h, slots, idx, socks, backlog);
            && idx[k] in d.found
            && (Has(p.revents, POLLIN) && !e.server && h.onReadable ==> Readable(e.sock) in d.trace)
            && (Has(p.revents, POLLIN) && e.server && h.onAccept && mode.Notify? ==> AcceptReady(e.sock) in d.trace)
            && (Has(p.revents, POLLIN) && e.server && h.onAccept && mode.Drain? ==>
                  var drained := DrainAccepts(Pending(backlog, p.fd), e.sock);
                  Infix(d.trace, drained.0) && Pending(d.backlog, p.fd) == drained.1)
            && (Has(p.revents, POLLOUT) && h.onWritable ==> Writable(e.sock) in d.trace)
            && (Has(p.revents, POLLHUP) && h.onHangup ==> Hangup(e.sock) in d.trace)
            && (Has(p.revents, POLLERR) && h.onError ==> Errored(e.sock) in d.trace)
    decreases |idx|
  {
    var o := Slot(mode, h, slots[idx[0]], socks, backlog);
    var rest := DispatchAll(mode, h, slots, idx[1..], o.socks, o.backlog);
    assert DispatchAll(mode, h, slots, idx, socks, backlog).trace == o.trace + rest.trace;
    assert DispatchAll(mode, h, slots, idx, socks, backlog).backlog == rest.backlog;
    var p := slots[idx[k]];
    if k == 0 {
      SlotTailCallbacks(mode, h, p, socks, backlog);
      SlotReadCallbacks(mode, h, p, socks, backlog);
      if Has(p.revents, POLLIN) && socks[p.fd].server && h.onAccept && mode.Drain? {
        var drained := DrainAccepts(Pending(backlog, p.fd), socks[p.fd].sock);
        SlotDrainsBacklog(h, p, socks, backlog);
        assert |drained.0| <= |o.trace| by {
          SlotTrace(mode, h, p, socks, backlog);
          ReadPartDrains(h, p, socks, backlog);
        }
        InfixOfPrefix(o.trace, rest.trace, drained.0);
        SlotDrainPending(h, p, socks, backlog);
        assert forall l :: 0 <= l < |idx[1..]| ==> idx[1..][l] < |slots| && slots[idx[1..][l]].fd != p.fd by {
          forall l | 0 <= l < |idx[1..]|
            ensures slots[idx[1..][l]].fd != p.fd
          {
            assert idx[1..][l] == idx[l + 1];
          }
        }
        DispatchAllBacklogFrame(mode, h, slots, idx[1..], o.socks, o.backlog, p.fd);
      }
    } else {
      var fd := p.fd;
      SlotRemoves(mode, h, slots[idx[0]], socks, backlog);
      assert fd != slots[idx[0]].fd;
      assert fd in o.socks && o.socks[fd] == socks[fd];
      assert idx[1..][k - 1] == idx[k];
      SlotBacklogFrame(mode, h, slots[idx[0]], socks, backlog, fd);
      DispatchAllReports(mode, h, slots, idx[1..], o.socks, o.backlog, k - 1);
      if Has(p.revents, POLLIN) && socks[fd].server && h.onAccept && mode.Drain? {
        InfixOfSuffix(o.trace, rest.trace, DrainAccepts(Pending(backlog, fd), socks[fd].sock).0);
      }
    }
  }

  /** The cycle-level form: with distinct descriptors in the array, every
      handled slot whose descriptor is registered when the cycle starts gets
      every callback its revents and handlers call for, in any registry of
      any size (a drained server's accepts as one run, its queue left as the
      drain loop left it), and its `revents` are reset; a slot the cycle
      does not handle keeps the `revents` `poll` wrote. */
  lemma ListenReports(mode: AcceptMode, h: Handlers, r: Reactor, order: seq<int>, n: nat,
                      revents: seq<bv16>, backlog: Backlog, j: nat)
    requires IsEnumeration(order, r.socks.Keys) && |revents| == |r.socks| && |r.socks| > 0 && n > 0
    requires DistinctFds(r.pollfd)
    requires j < |r.socks|
    ensures var slots := Polled(r, order, revents);
            var c := Listen(mode, h, r, order, PollReady(n, revents), backlog);
            var p := slots[j];
            && (!Visited(slots, n, j) ==> c.reactor.pollfd[j].revents == revents[j])
            && (Visited(slots, n, j) && p.fd in r.socks ==>
                  var e := r.socks[p.fd];
                  && c.reactor.pollfd[j].revents == 0
                  && (Has(p.revents, POLLIN) && !e.server && h.onReadable ==> Readable(e.sock) in c.trace)
                  && (Has(p.revents, POLLIN) && e.server && h.onAccept && mode.Notify? ==> AcceptReady(e.sock) in c.trace)
                  && (Has(p.revents, POLLIN) && e.server && h.onAccept && mode.Drain? ==>
                        var drained := DrainAccepts(Pending(backlog, p.fd), e.sock);
                        Infix(c.trace, drained.0) && Pending(c.backlog, p.fd) == drained.1)
                  && (Has(p.revents, POLLOUT) && h.onWritable ==> Writable(e.sock) in c.trace)
                  && (Has(p.revents, POLLHUP) && h.onHangup ==> Hangup(e.sock) in c.trace)
                  && (Has(p.revents, POLLERR) && h.onError ==> Errored(e.sock) in c.trace))
  {
    var slots := Polled(r, order, revents);
    var v := Visits(slots, n);
    var d := DispatchAll(mode, h, slots, v, r.socks, backlog);
    ListenDispatchesVisits(mode, h, r, order, n, revents, backlog);
    VisitsAreVisited(slots, n);
    if j in d.found {
      var k :| 0 <= k < |v| && v[k] == j;
      assert Visited(slots, n, v[k]);
    }
    if Visited(slots, n, j) && slots[j].fd in r.socks {
      assert DistinctFds(slots) by {
        assert DistinctFds(Prepare(r, order));
      }
      DispatchAllReports(mode, h, slots, v, r.socks, backlog, NonZero(slots[..j]));
    }
  }
}

=== FILE: handles.dfy ===
/** The shared socket handle `csocket`. Every copy of a handle points at one
    shared cell holding a descriptor; the cell's custom deleter closes the
    descriptor when the last copy goes, and only if it is positive.

    The heap of cells is an explicit store. `closed` records, in order, every
    descriptor handed to the `close` system call, so "closed exactly once"
    is a statement about that trace. */
module Handles {
  import opened Basics

  type CellId = nat

  /** One shared cell: the descriptor (-1 when not open) and the number of
      handle copies that share it. */
  datatype Cell = Cell(fd: i32, refs: nat)

  datatype Store = Store(cells: map<CellId, Cell>, next: CellId, closed: seq<int>)

  /** A handle value is a view onto one cell; copies hold the same id. */
  datatype Handle = Handle(cell: CellId)

  /** Every live cell has an owner, and fresh ids lie above every used one. */
  ghost predicate Valid(st: Store)
  {
    forall c :: c in st.cells ==> c < st.next && st.cells[c].refs >= 1
  }

  predicate Live(st: Store, h: Handle)
  {
    h.cell in st.cells
  }

  /** `h()`: the descriptor seen through a handle. */
  function Fd(st: Store, h: Handle): (fd: i32)
    requires Live(st, h)
  {
    st.cells[h.cell].fd
  }

  /** `csocket(int soc = -1)`: a new cell owned by one handle. */
  function Open(st: Store, soc: i32): (r: (Store, Handle))
    requires Valid(st)
    ensures Valid(r.0)
    ensures r.1.cell !in st.cells
    ensures r.0.cells == st.cells[r.1.cell := Cell(soc, 1)]
    ensures r.0.closed == st.closed
  {
    (Store(st.cells[st.next := Cell(soc, 1)], st.next + 1, st.closed), Handle(st.next))
  }

  /** The copy constructor: one more owner of the same cell. */
  function Copy(st: Store, h: Handle): (r: Store)
    requires Valid(st) && Live(st, h)
    ensures Valid(r)
    ensures r.cells.Keys == st.cells.Keys && r.closed == st.closed
    ensures Fd(r, h) == Fd(st, h) && r.cells[h.cell].refs == st.cells[h.cell].refs + 1
    ensures forall c :: c in st.cells && c != h.cell ==> r.cells[c] == st.cells[c]
  {
    var c := st.cells[h.cell];
    st.(cells := st.cells[h.cell := c.(refs := c.refs + 1)])
  }

  /** The destructor of one copy. When it was the last owner the deleter
      runs: the descriptor is closed if it is positive and the cell is freed.
      Dropping a share that others still hold closes nothing. */
  function Release(st: Store, h: Handle): (r: Store)
    requires Valid(st) && Live(st, h)
    ensures Valid(r)
    ensures st.cells[h.cell].refs > 1 ==>
              r.closed == st.closed && Live(r, h) && Fd(r, h) == Fd(st, h)
              && r.cells[h.cell].refs == st.cells[h.cell].refs - 1
    ensures st.cells[h.cell].refs == 1 ==>
              !Live(r, h)
              && r.closed == st.closed + (if Fd(st, h) > 0 then [Fd(st, h)] else [])
    ensures forall c :: c in st.cells && c != h.cell ==> c in r.cells && r.cells[c] == st.cells[c]
    ensures r.cells.Keys <= st.cells.Keys
  {
    var c := st.cells[h.cell];
    if c.refs > 1 then
      st.(cells := st.cells[h.cell := c.(refs := c.refs - 1)])
    else
      st.(cells := st.cells - {h.cell}, closed := st.closed + (if c.fd > 0 then [c.fd] else []))
  }

  /** `operator=`: the target starts sharing the source's cell and drops its
      share of the old one (which may run the old cell's deleter). */
  function Assign(st: Store, dst: Handle, src: Handle): (r: (Store, Handle))
    requires Valid(st) && Live(st, dst) && Live(st, src)
    ensures Valid(r.0)
    ensures r.1 == src && Live(r.0, src) && Fd(r.0, src) == Fd(st, src)
    ensures dst.cell == src.cell ==> r.0 == st
    ensures dst.cell != src.cell ==> r.0.cells[src.cell].refs == st.cells[src.cell].refs + 1
    ensures dst.cell != src.cell && st.cells[dst.cell].refs > 1 ==>
              r.0.closed == st.closed && Live(r.0, dst) && Fd(r.0, dst) == Fd(st, dst)
              && r.0.cells[dst.cell].refs == st.cells[dst.cell].refs - 1
    ensures dst.cell != src.cell && st.cells[dst.cell].refs == 1 ==>
              !Live(r.0, dst) && r.0.closed == st.closed + (if Fd(st, dst) > 0 then [Fd(st, dst)] else [])
    ensures forall c :: c in st.cells && c != dst.cell && c != src.cell ==> c in r.0.cells && r.0.cells[c] == st.cells[c]
    ensures r.0.cells.Keys <= st.cells.Keys
  {
    (Release(Copy(st, src), dst), src)
  }

  /** `close()`: closes and marks the cell -1 only when the descriptor is
      positive; otherwise nothing happens. */
  function Close(st: Store, h: Handle): (r: Store)
    requires Valid(st) && Live(st, h)
    ensures Valid(r) && r.cells.Keys == st.cells.Keys
    ensures Fd(st, h) > 0 ==> r.closed == st.closed + [Fd(st, h)] && Fd(r, h) == -1
    ensures Fd(st, h) <= 0 ==> r == st
    ensures r.cells[h.cell].refs == st.cells[h.cell].refs
    ensures forall c :: c in st.cells && c != h.cell ==> r.cells[c] == st.cells[c]
  {
    var c := st.cells[h.cell];
    if c.fd > 0 then
      st.(cells := st.cells[h.cell := c.(fd := -1)], closed := st.closed + [c.fd])
    else
      st
  }

  /** `attach(soc)`: overwrite the shared descriptor without closing the
      previous one. */
  function Attach(st: Store, h: Handle, soc: i32): (r: Store)
    requires Valid(st) && Live(st, h)
    ensures Valid(r) && r.cells.Keys == st.cells.Keys && r.closed == st.closed
    ensures Fd(r, h) == soc && r.cells[h.cell].refs == st.cells[h.cell].refs
    ensures forall c :: c in st.cells && c != h.cell ==> r.cells[c] == st.cells[c]
  {
    var c := st.cells[h.cell];
    st.(cells := st.cells[h.cell := c.(fd := soc)])
  }

  /** `detach()`: hand the descriptor to the caller, leave -1 behind, close
      nothing. */
  function Detach(st: Store, h: Handle): (r: (Store, i32))
    requires Valid(st) && Live(st, h)
    ensures r.1 == Fd(st, h)
    ensures Valid(r.0) && r.0.cells.Keys == st.cells.Keys && r.0.closed == st.closed
    ensures Fd(r.0, h) == -1 && r.0.cells[h.cell].refs == st.cells[h.cell].refs
    ensures forall c :: c in st.cells && c != h.cell ==> r.0.cells[c] == st.cells[c]
  {
    (Attach(st, h, -1), Fd(st, h))
  }

  /** `socket(type, proto, family)`: close the current descriptor, then store
      what the `socket` system call returned (`created`, -1 on failure with
      `errno`). The result is 0 exactly when `created` is not -1. */
  function Socket(st: Store, h: Handle, created: i32, errno: int): (r: (Store, int))
    requires Valid(st) && Live(st, h)
    ensures Valid(r.0) && r.0.cells.Keys == st.cells.Keys
    ensures Fd(r.0, h) == created && r.0.cells[h.cell].refs == st.cells[h.cell].refs
    ensures r.1 == 0 <==> created != -1 || errno == 0
    ensures created == -1 ==> r.1 == -errno
    ensures r.0.closed == st.closed + (if Fd(st, h) > 0 then [Fd(st, h)] else [])
    ensures forall c :: c in st.cells && c != h.cell ==> r.0.cells[c] == st.cells[c]
  {
    var st1 := Close(st, h);
    (Attach(st1, h, created), if created != -1 then 0 else -errno)
  }

  /** What the creating constructor yields: a handle, or the error it throws. */
  datatype Made = Made(st: Store, h: Handle) | Thrown(st: Store, code: int)

  /** `csocket(type, proto, family)`: a fresh cell at -1, then `socket`. A
      non-zero result is thrown as a system error; the half-built object's
      cell is released (it holds -1, so nothing is closed). */
  function Create(st: Store, created: i32, errno: int): (m: Made)
    requires Valid(st)
    ensures Valid(m.st) && m.st.closed == st.closed
    ensures m.Made? <==> created != -1 || errno == 0
    ensures m.Made? ==> m.h.cell !in st.cells && m.st.cells == st.cells[m.h.cell := Cell(created, 1)]
    ensures m.Thrown? ==> m.code == errno && m.st.cells == st.cells
  {
    var (st1, h) := Open(st, -1);
    var (st2, res) := Socket(st1, h, created, errno);
    if res == 0 then Made(st2, h)
    else Thrown(Release(st2, h), -res)
  }

  /** `accept(so, ainfo)`: `so` is rebound to a fresh cell holding what the
      `accept` system call returned (`accepted`), and drops its share of its
      old cell; older copies of `so` keep the old cell. The result is 0 when
      the new descriptor is positive, `-errno` otherwise. */
  function Accept(st: Store, so: Handle, accepted: i32, errno: int): (r: (Store, Handle, int))
    requires Valid(st) && Live(st, so)
    ensures Valid(r.0)
    ensures r.1.cell !in st.cells && Live(r.0, r.1) && Fd(r.0, r.1) == accepted
    ensures r.0.cells[r.1.cell].refs == 1
    ensures st.cells[so.cell].refs > 1 ==>
              Live(r.0, so) && Fd(r.0, so) == Fd(st, so) && r.0.closed == st.closed
              && r.0.cells[so.cell].refs == st.cells[so.cell].refs - 1
    ensures st.cells[so.cell].refs == 1 ==>
              !Live(r.0, so) && r.0.closed == st.closed + (if Fd(st, so) > 0 then [Fd(st, so)] else [])
    ensures forall c :: c in st.cells && c != so.cell ==> c in r.0.cells && r.0.cells[c] == st.cells[c]
    ensures r.0.cells.Keys <= st.cells.Keys + {r.1.cell}
    ensures accepted > 0 ==> r.2 == 0
    ensures accepted <= 0 ==> r.2 == -errno
  {
    var (st1, tmp) := Open(st, accepted);
    var (st2, so') := Assign(st1, so, tmp);
    var st3 := Release(st2, tmp);
    (st3, so', if Fd(st3, so') > 0 then 0 else -errno)
  }

  /** `std::hash<csocket>`: the descriptor converted to `size_t`. */
  function Hash(st: Store, h: Handle): (v: nat)
    requires Live(st, h)
    ensures v < 0x1_0000_0000_0000_0000
    ensures Fd(st, h) >= 0 ==> v == Fd(st, h)
    ensures Fd(st, h) < 0 ==> v == Fd(st, h) + 0x1_0000_0000_0000_0000
  {
    Fd(st, h) % 0x1_0000_0000_0000_0000
  }

  /** `std::equal_to<csocket>`: same descriptor value. */
  predicate Same(st: Store, a: Handle, b: Handle)
    requires Live(st, a) && Live(st, b)
  {
    Fd(st, a) == Fd(st, b)
  }

  /** Equal handles hash equally, and copies of one handle are equal. */
  lemma SameHashConsistent(st: Store, a: Handle, b: Handle)
    requires Live(st, a) && Live(st, b)
    ensures Same(st, a, b) ==> Hash(st, a) == Hash(st, b)
    ensures a.cell == b.cell ==> Same(st, a, b)
  {
  }

  /** Calling `close()` twice is the same as calling it once. */
  lemma CloseIdempotent(st: Store, h: Handle)
    requires Valid(st) && Live(st, h)
    ensures Close(Close(st, h), h) == Close(st, h)
  {
  }

  /** A change made through one copy is seen through every other copy. */
  lemma AttachSeenByCopies(st: Store, h: Handle, copy: Handle, soc: i32)
    requires Valid(st) && Live(st, h) && copy.cell == h.cell
    ensures Fd(Attach(st, h, soc), copy) == soc
    ensures Fd(Detach(st, h).0, copy) == -1
    ensures Fd(Close(st, h), copy) == (if Fd(st, copy) > 0 then -1 else Fd(st, copy))
  {
  }

  /** `k` consecutive destructions of copies of `h`. */
  function ReleaseTimes(st: Store, h: Handle, k: nat): (r: Store)
    requires Valid(st) && Live(st, h) && k <= st.cells[h.cell].refs
    ensures Valid(r)
    decreases k
  {
    if k == 0 then st
    else
      var st1 := Release(st, h);
      if k == 1 then st1 else ReleaseTimes(st1, h, k - 1)
  }

  /** The deleter fires once: while some owner remains nothing is closed,
      and when the last of the `refs` owners goes the descriptor is closed
      exactly once (if positive) and the cell is gone, so no further release
      or close can reach it. */
  lemma {:induction false} LastReleaseClosesOnce(st: Store, h: Handle, k: nat)
    requires Valid(st) && Live(st, h) && k <= st.cells[h.cell].refs
    ensures k < st.cells[h.cell].refs ==>
              ReleaseTimes(st, h, k).closed == st.closed && Live(ReleaseTimes(st, h, k), h)
              && Fd(ReleaseTimes(st, h, k), h) == Fd(st, h)
              && ReleaseTimes(st, h, k).cells[h.cell].refs == st.cells[h.cell].refs - k
    ensures k == st.cells[h.cell].refs ==>
              !Live(ReleaseTimes(st, h, k), h)
              && ReleaseTimes(st, h, k).closed == st.closed + (if Fd(st, h) > 0 then [Fd(st, h)] else [])
    decreases k
  {
    if k > 1 {
      LastReleaseClosesOnce(Release(st, h), h, k - 1);
    }
  }

  /** A handle copied three times (four owners) and every copy destroyed:
      the descriptor is closed exactly once. */
  lemma FourOwnersCloseOnce(st: Store, soc: i32)
    requires Valid(st)
    ensures var (st1, h) := Open(st, soc);
            var st2 := Copy(Copy(Copy(st1, h), h), h);
            ReleaseTimes(st2, h, 4).closed == st.closed + (if soc > 0 then [soc] else [])
  {
    var (st1, h) := Open(st, soc);
    var st2 := Copy(Copy(Copy(st1, h), h), h);
    LastReleaseClosesOnce(st2, h, 4);
  }
}

=== FILE: options.dfy ===
/** The pieces of `csocket`'s option setters that carry logic of their own:
    the millisecond split of `settimeout`, the fanout argument packing of
    `setfanoutmode`, and the short-circuit chain of `settcpkeepalive`. The
    `setsockopt` calls themselves are outcomes supplied by the caller. */
module SocketOptions {
  import opened Basics

  datatype TimeVal = TimeVal(sec: int, usec: int)

  /** `settimeout`: `milliseconds` (a `size_t`) as whole seconds plus
      microseconds. */
  function Timeout(ms: u64): (tv: TimeVal)
    ensures 0 <= tv.usec < 1_000_000 && 0 <= tv.sec
    ensures tv.sec * 1_000_000 + tv.usec == ms * 1000
  {
    TimeVal(ms / 1000, (ms % 1000) * 1000)
  }

  /** The split is the only one with an in-range microsecond part. */
  lemma TimeoutUnique(ms: u64, tv: TimeVal)
    requires 0 <= tv.usec < 1_000_000
    requires tv.sec * 1_000_000 + tv.usec == ms * 1000
    ensures tv == Timeout(ms)
  {
    var t := Timeout(ms);
    assert (tv.sec - t.sec) * 1_000_000 == t.usec - tv.usec;
  }

  // Fanout modes of Linux packet sockets.
  const PACKET_FANOUT_HASH: bv32 := 0
  const PACKET_FANOUT_LB: bv32 := 1
  const GROUP_SHIFT: bv5 := 11
  const MODE_SHIFT: bv5 := 16

  /** `setfanoutmode(group, type, pid)`: a pid of -1 is replaced by the
      caller's own (`self`); the fanout id is `group << 11 | pid & 0x7ff`
      and the option value `id | type << 16`, all in 32-bit `int`. The
      `uint16_t` group arrives widened to 32 bits. */
  function FanoutArg(group: bv32, kind: bv32, pid: bv32, self: bv32): (arg: bv32)
    requires group <= 0xFFFF
    ensures arg & 0x7ff == (if pid == 0xFFFF_FFFF then self else pid) & 0x7ff
  {
    var p := if pid == 0xFFFF_FFFF then self else pid;
    var id := (group << GROUP_SHIFT) | (p & 0x7ff);
    id | (kind << MODE_SHIFT)
  }

  /** How Linux reads a fanout argument: the low 16 bits are the group id,
      the high 16 bits the mode and flags. */
  function KernelGroupId(arg: bv32): (id: bv32) { arg & 0xFFFF }
  function KernelMode(arg: bv32): (mode: bv32) { arg >> MODE_SHIFT }

  /** For groups below 32 the packing is faithful: the kernel sees the
      requested mode and the id `group << 11 | pid & 0x7ff`. */
  lemma FanoutSmallGroupDecodes(group: bv32, kind: bv32, pid: bv32, self: bv32)
    requires group < 32 && kind < 0x1_0000
    ensures KernelMode(FanoutArg(group, kind, pid, self)) == kind
    ensures KernelGroupId(FanoutArg(group, kind, pid, self))
            == (group << GROUP_SHIFT) | ((if pid == 0xFFFF_FFFF then self else pid) & 0x7ff)
  {
  }

  /** Group 32 spills into the mode field: asking for hash fanout gives the
      kernel load-balancing mode and group id 0. */
  lemma FanoutLargeGroupCorruptsMode()
    ensures KernelMode(FanoutArg(32, PACKET_FANOUT_HASH, 0, 0)) == PACKET_FANOUT_LB
    ensures KernelGroupId(FanoutArg(32, PACKET_FANOUT_HASH, 0, 0)) == 0
  {
  }

  /** The packing with the id truncated to the 16 bits the kernel reads, so
      the group cannot reach the mode field. */
  function FanoutArgMasked(group: bv32, kind: bv32, pid: bv32, self: bv32): (arg: bv32)
    requires group <= 0xFFFF && kind < 0x1_0000
    ensures KernelMode(arg) == kind
    ensures KernelGroupId(arg)
            == ((group << GROUP_SHIFT) | ((if pid == 0xFFFF_FFFF then self else pid) & 0x7ff)) & 0xFFFF
  {
    var p := if pid == 0xFFFF_FFFF then self else pid;
    var id := ((group << GROUP_SHIFT) | (p & 0x7ff)) & 0xFFFF;
    id | (kind << MODE_SHIFT)
  }

  /** Below 32 groups the truncation changes nothing. */
  lemma FanoutMaskedAgreesOnSmallGroups(group: bv32, kind: bv32, pid: bv32, self: bv32)
    requires group < 32 && kind < 0x1_0000
    ensures FanoutArgMasked(group, kind, pid, self) == FanoutArg(group, kind, pid, self)
  {
  }

  /** The `setsockopt` calls `settcpkeepalive` can make. */
  datatype KeepOpt = KeepAlive | KeepCount(cnt: int) | KeepIdle(idle: int) | KeepInterval(intvl: int)

  /** The calls made, in order, and the value returned. */
  datatype Chain = Chain(calls: seq<KeepOpt>, result: int)

  /** The calls `settcpkeepalive` intends when every one succeeds: enable
      keep-alive, then each parameter that is not -1, count before idle
      before interval. */
  function KeepAlivePlan(intvl: int, idle: int, cnt: int): (plan: seq<KeepOpt>)
  {
    [KeepAlive]
    + (if cnt != -1 then [KeepCount(cnt)] else [])
    + (if idle != -1 then [KeepIdle(idle)] else [])
    + (if intvl != -1 then [KeepInterval(intvl)] else [])
  }

  /** `settcpkeepalive(keepintvl, keepidle, keepcnt)`: each step runs only
      while the previous result is 0; `setopt` gives each call's result. */
  function SetKeepAlive(intvl: int, idle: int, cnt: int, setopt: KeepOpt -> int): (c: Chain)
    ensures 1 <= |c.calls| && c.calls <= KeepAlivePlan(intvl, idle, cnt)
    ensures forall i :: 0 <= i < |c.calls| - 1 ==> setopt(c.calls[i]) == 0
    ensures c.result == setopt(c.calls[|c.calls| - 1])
    ensures c.result == 0 ==> c.calls == KeepAlivePlan(intvl, idle, cnt)
  {
    var c0 := Chain([KeepAlive], setopt(KeepAlive));
    var c1 := if c0.result == 0 && cnt != -1
      then Chain(c0.calls + [KeepCount(cnt)], setopt(KeepCount(cnt))) else c0;
    var c2 := if c1.result == 0 && idle != -1
      then Chain(c1.calls + [KeepIdle(idle)], setopt(KeepIdle(idle))) else c1;
    var c3 := if c2.result == 0 && intvl != -1
      then Chain(c2.calls + [KeepInterval(intvl)], setopt(KeepInterval(intvl))) else c2;
    c3
  }
}

=== FILE: origdst.dfy ===
/** The transparent-proxy form of `recvfrom`: after `recvmsg`, walk the
    ancillary-data chain for the first SOL_IP / IP_RECVORIGDSTADDR record and
    copy the original IPv4 destination it carries into `adst`. */
module OrigDst {
  import opened Basics
  import opened SockAddr

  const SOL_IP: int := 0
  const IP_RECVORIGDSTADDR: int := 20

  /** One control message of the chain the kernel returned: level, type and
      payload. */
  datatype Cmsg = Cmsg(level: int, kind: int, data: seq<byte>)

  predicate IsOrigDst(m: Cmsg)
  {
    m.level == SOL_IP && m.kind == IP_RECVORIGDSTADDR
  }

  /** The kernel attaches a whole `sockaddr_in` to every original-destination
      record. */
  predicate KernelChain(chain: seq<Cmsg>)
  {
    forall i :: 0 <= i < |chain| && IsOrigDst(chain[i]) ==> |chain[i].data| >= SIN_SIZE
  }

  /** The walk from `CMSG_FIRSTHDR` through `CMSG_NXTHDR`, stopping at the
      first matching record: the least matching index at or after `from`. */
  function FirstOrigDst(chain: seq<Cmsg>, from: nat): (r: Option<nat>)
    requires from <= |chain|
    ensures r.Some? ==> from <= r.value < |chain| && IsOrigDst(chain[r.value])
    ensures r.Some? ==> forall j :: from <= j < r.value ==> !IsOrigDst(chain[j])
    ensures r.None? ==> forall j :: from <= j < |chain| ==> !IsOrigDst(chain[j])
    decreases |chain| - from
  {
    if from == |chain| then None
    else if IsOrigDst(chain[from]) then Some(from)
    else FirstOrigDst(chain, from + 1)
  }

  datatype Received = Received(result: int, adst: Storage)

  /** `recvfrom(buffer, length, asrc, adst, flags)`. `ret` is what `recvmsg`
      returned, `errno` its error and `chain` the control messages it
      delivered. A result of 0 or less yields `-errno` and leaves `adst`
      alone. Otherwise `adst`'s family is reset to 0; the first matching
      record's `sockaddr_in` (16 bytes) is copied over the start of `adst`
      and the family forced to AF_INET; later records are ignored. */
  function RecvFrom(e: Endian, ret: int, errno: int, chain: seq<Cmsg>, adst: Storage): (r: Received)
    requires KernelChain(chain)
    ensures ret <= 0 ==> r == Received(-errno, adst)
    ensures ret > 0 ==> r.result == ret
    ensures ret > 0 && FirstOrigDst(chain, 0).None? ==>
              Family(e, r.adst) == AF_UNSPEC && forall i :: 2 <= i < SS_SIZE ==> r.adst[i] == adst[i]
    ensures ret > 0 && FirstOrigDst(chain, 0).Some? ==>
              var m := chain[FirstOrigDst(chain, 0).value];
              && Family(e, r.adst) == AF_INET
              && r.adst[2..SIN_SIZE] == m.data[2..SIN_SIZE]
              && forall i :: SIN_SIZE <= i < SS_SIZE ==> r.adst[i] == adst[i]
  {
    if ret <= 0 then Received(-errno, adst)
    else
      var reset := SetFamily(e, adst, AF_UNSPEC);
      match FirstOrigDst(chain, 0)
      case None => Received(ret, reset)
      case Some(k) =>
        var copied := Splice(reset, 0, chain[k].data[..SIN_SIZE]);
        var r := SetFamily(e, copied, AF_INET);
        assert r[2..SIN_SIZE] == copied[2..SIN_SIZE];
        Received(ret, r)
  }

  /** A recovered destination reads back as the IPv4 address and port the
      record carried (both in network order in the payload), with the
      `sockaddr_in` wire length. */
  lemma RecoversOriginalDestination(e: Endian, ret: int, errno: int, chain: seq<Cmsg>, adst: Storage, k: nat)
    requires KernelChain(chain) && ret > 0
    requires k < |chain| && IsOrigDst(chain[k]) && forall j :: 0 <= j < k ==> !IsOrigDst(chain[j])
    ensures Ip(e, RecvFrom(e, ret, errno, chain, adst).adst) == 4
    ensures Size(e, RecvFrom(e, ret, errno, chain, adst).adst) == SIN_SIZE
    ensures Port(e, RecvFrom(e, ret, errno, chain, adst).adst) == FromBigEndian16(chain[k].data[PORT_OFF..PORT_OFF + 2])
    ensures RecvFrom(e, ret, errno, chain, adst).adst[SIN_ADDR_OFF..SIN_ADDR_OFF + 4] == chain[k].data[SIN_ADDR_OFF..SIN_ADDR_OFF + 4]
  {
    assert FirstOrigDst(chain, 0) == Some(k);
    var a := RecvFrom(e, ret, errno, chain, adst).adst;
    SubRange(a, chain[k].data, 2, SIN_SIZE, PORT_OFF, PORT_OFF + 2);
    SubRange(a, chain[k].data, 2, SIN_SIZE, SIN_ADDR_OFF, SIN_ADDR_OFF + 4);
  }

  /** Without a matching record the destination stays unset: family 0,
      port 0, version 0. This is not an error; the result is still the
      received length. */
  lemma NoRecordLeavesUnset(e: Endian, ret: int, errno: int, chain: seq<Cmsg>, adst: Storage)
    requires KernelChain(chain) && ret > 0
    requires forall j :: 0 <= j < |chain| ==> !IsOrigDst(chain[j])
    ensures Ip(e, RecvFrom(e, ret, errno, chain, adst).adst) == 0
    ensures Port(e, RecvFrom(e, ret, errno, chain, adst).adst) == 0
    ensures RecvFrom(e, ret, errno, chain, adst).result == ret
  {
    assert FirstOrigDst(chain, 0).None?;
  }
}

=== FILE: registry.dfy ===
/** The registry both reactors keep: descriptor -> (handle, is-server,
    interest mask), plus the cached `pollfd` array handed to `poll`, which is
    rebuilt only when its length differs from the registry's size. */
module Registry {
  import opened Basics
  import Handles

  // poll(2) event bits (`short`).
  const POLLIN: bv16 := 0x001
  const POLLOUT: bv16 := 0x004
  const POLLERR: bv16 := 0x008
  const POLLHUP: bv16 := 0x010
  const POLLNVAL: bv16 := 0x020

  /** Default interest mask of `insert_client`. */
  const CLIENT_EVENTS: bv16 := POLLIN | POLLERR | POLLHUP

  datatype Entry = Entry(sock: Handles.Handle, server: bool, mask: bv16)

  type Socks = map<int, Entry>

  datatype PollFd = PollFd(fd: int, events: bv16, revents: bv16)

  datatype Reactor = Reactor(socks: Socks, pollfd: seq<PollFd>)

  function Init(): (r: Reactor)
    ensures |r.socks| == 0 && |r.pollfd| == 0
  {
    Reactor(map[], [])
  }

  /** `_socks.emplace(so.h(), (so, server, mask))`: keyed by the descriptor
      the handle holds now. An existing entry is never overwritten. */
  function Insert(r: Reactor, st: Handles.Store, so: Handles.Handle, server: bool, mask: bv16): (res: (Reactor, bool))
    requires Handles.Live(st, so)
    ensures var fd := Handles.Fd(st, so);
            && (fd in r.socks ==> !res.1 && res.0 == r)
            && (fd !in r.socks ==> res.1 && res.0.socks == r.socks[fd := Entry(so, server, mask)])
    ensures res.0.pollfd == r.pollfd
  {
    var fd: int := Handles.Fd(st, so);
    if fd in r.socks then (r, false)
    else (r.(socks := r.socks[fd := Entry(so, server, mask)]), true)
  }

  /** `insert_server(so, poll_events)`. */
  function InsertServer(r: Reactor, st: Handles.Store, so: Handles.Handle, mask: bv16): (res: (Reactor, bool))
    requires Handles.Live(st, so)
    ensures res.1 <==> Handles.Fd(st, so) !in r.socks
    ensures res.1 ==> res.0.socks == r.socks[Handles.Fd(st, so) := Entry(so, true, mask)]
    ensures !res.1 ==> res.0 == r
    ensures res.0.pollfd == r.pollfd
  {
    Insert(r, st, so, true, mask)
  }

  /** `insert_client(so, poll_events)`. */
  function InsertClient(r: Reactor, st: Handles.Store, so: Handles.Handle, mask: bv16): (res: (Reactor, bool))
    requires Handles.Live(st, so)
    ensures res.1 <==> Handles.Fd(st, so) !in r.socks
    ensures res.1 ==> res.0.socks == r.socks[Handles.Fd(st, so) := Entry(so, false, mask)]
    ensures !res.1 ==> res.0 == r
    ensures res.0.pollfd == r.pollfd
  {
    Insert(r, st, so, false, mask)
  }

  /** `remove(so)`: `_socks.erase(so.h())`, returning how many entries went. */
  function Remove(r: Reactor, st: Handles.Store, so: Handles.Handle): (res: (Reactor, nat))
    requires Handles.Live(st, so)
    ensures res.1 == 1 <==> Handles.Fd(st, so) in r.socks
    ensures res.1 == 0 <==> Handles.Fd(st, so) !in r.socks
    ensures Handles.Fd(st, so) !in res.0.socks
    ensures forall k :: k != Handles.Fd(st, so) ==>
              (k in res.0.socks <==> k in r.socks) && (k in r.socks ==> res.0.socks[k] == r.socks[k])
    ensures res.0.pollfd == r.pollfd
  {
    var fd: int := Handles.Fd(st, so);
    (r.(socks := r.socks - {fd}), if fd in r.socks then 1 else 0)
  }

  /** Registering one descriptor twice, in either role, fails the second
      time and leaves exactly the first entry. */
  lemma DuplicateInsertKeepsFirst(r: Reactor, st: Handles.Store, a: Handles.Handle, b: Handles.Handle,
                                  serverA: bool, serverB: bool, maskA: bv16, maskB: bv16)
    requires Handles.Live(st, a) && Handles.Live(st, b) && Handles.Fd(st, a) == Handles.Fd(st, b)
    requires Handles.Fd(st, a) !in r.socks
    ensures var (r1, ok1) := Insert(r, st, a, serverA, maskA);
            var (r2, ok2) := Insert(r1, st, b, serverB, maskB);
            && ok1 && !ok2
            && r2.socks[Handles.Fd(st, a)] == Entry(a, serverA, maskA)
            && |r2.socks| == |r.socks| + 1
  {
  }

  /** No two slots of the array name the same descriptor. */
  predicate DistinctFds(a: seq<PollFd>)
  {
    forall i, j :: 0 <= i < j < |a| ==> a[i].fd != a[j].fd
  }

  /** `order` lists every key once: the iteration order of the
      `unordered_map`, which the model leaves open. */
  predicate IsEnumeration(order: seq<int>, keys: set<int>)
  {
    && (forall k :: k in keys ==> k in order)
    && (forall i :: 0 <= i < |order| ==> order[i] in keys)
    && (forall i, j :: 0 <= i < j < |order| ==> order[i] != order[j])
  }

  /** The fds of an array, as a set. */
  function FdSet(a: seq<PollFd>): (fds: set<int>)
  {
    set i | 0 <= i < |a| :: a[i].fd
  }

  /** A duplicate-free sequence of `n` elements has an `n`-element set. */
  lemma {:induction false} DistinctCard(order: seq<int>)
    requires forall i, j :: 0 <= i < j < |order| ==> order[i] != order[j]
    ensures |set i | 0 <= i < |order| :: order[i]| == |order|
  {
    if |order| > 0 {
      var init := order[..|order| - 1];
      DistinctCard(init);
      var s := set i | 0 <= i < |order| :: order[i];
      var s' := set i | 0 <= i < |init| :: init[i];
      assert s == s' + {order[|order| - 1]};
      assert order[|order| - 1] !in s';
    }
  }

  /** An enumeration covers the keys exactly, one slot per key. */
  lemma EnumerationCovers(order: seq<int>, keys: set<int>)
    requires IsEnumeration(order, keys)
    ensures (set i | 0 <= i < |order| :: order[i]) == keys
    ensures |order| == |keys|
  {
    var s := set i | 0 <= i < |order| :: order[i];
    forall k | k in keys
      ensures k in s
    {
      var i :| 0 <= i < |order| && order[i] == k;
    }
    DistinctCard(order);
  }

  /** An array whose descriptors follow `order` has `order`'s elements as
      its descriptor set. */
  lemma FdSetFollows(a: seq<PollFd>, order: seq<int>)
    requires |a| == |order| && forall i :: 0 <= i < |a| ==> a[i].fd == order[i]
    ensures FdSet(a) == set i | 0 <= i < |order| :: order[i]
  {
    var s := set i | 0 <= i < |order| :: order[i];
    forall x | x in s
      ensures x in FdSet(a)
    {
      var i :| 0 <= i < |order| && order[i] == x;
      assert a[i].fd == x;
    }
  }

  /** The rebuilt array: one slot per key, in `order`, each asking for
      `POLLERR | POLLNVAL | mask` with no pending events. */
  function Rebuild(socks: Socks, order: seq<int>): (a: seq<PollFd>)
    requires IsEnumeration(order, socks.Keys)
    ensures |a| == |socks|
    ensures DistinctFds(a)
    ensures FdSet(a) == socks.Keys
    ensures forall i :: 0 <= i < |a| ==>
              (a[i].fd in socks && a[i].events == POLLERR | POLLNVAL | socks[a[i].fd].mask && a[i].revents == 0)
  {
    var a := seq(|order|, i requires 0 <= i < |order| =>
                   PollFd(order[i], POLLERR | POLLNVAL | socks[order[i]].mask, 0));
    EnumerationCovers(order, socks.Keys);
    FdSetFollows(a, order);
    a
  }

  /** The array `listen` polls: rebuilt when its size differs from the
      registry's, otherwise reused as it is, even if the membership changed. */
  function Prepare(r: Reactor, order: seq<int>): (a: seq<PollFd>)
    requires IsEnumeration(order, r.socks.Keys)
    ensures |a| == |r.socks|
    ensures |r.pollfd| == |r.socks| ==> a == r.pollfd
    ensures |r.pollfd| != |r.socks| ==> FdSet(a) == r.socks.Keys && a == Rebuild(r.socks, order)
    ensures DistinctFds(r.pollfd) ==> DistinctFds(a)
  {
    if |r.socks| != |r.pollfd| then Rebuild(r.socks, order) else r.pollfd
  }

  /** Removing one registration and adding another between two cycles keeps
      the size, so the next cycle polls the stale array: the new descriptor
      is not watched and the removed one still is. */
  lemma SwapLeavesArrayStale(r: Reactor, st: Handles.Store, gone: Handles.Handle, added: Handles.Handle,
                             order: seq<int>)
    requires Handles.Live(st, gone) && Handles.Live(st, added)
    requires FdSet(r.pollfd) == r.socks.Keys && |r.pollfd| == |r.socks|
    requires Handles.Fd(st, gone) in r.socks && Handles.Fd(st, added) !in r.socks
    ensures var r2 := InsertClient(Remove(r, st, gone).0, st, added, CLIENT_EVENTS).0;
            IsEnumeration(order, r2.socks.Keys) ==>
              && Handles.Fd(st, added) in r2.socks
              && Handles.Fd(st, added) !in FdSet(Prepare(r2, order))
              && Handles.Fd(st, gone) in FdSet(Prepare(r2, order))
  {
    var fdGone: int := Handles.Fd(st, gone);
    var r1 := Remove(r, st, gone).0;
    var r2 := InsertClient(r1, st, added, CLIENT_EVENTS).0;
    assert r1.socks.Keys == r.socks.Keys - {fdGone};
    assert |r1.socks| == |r.socks| - 1;
    assert |r2.socks| == |r.socks|;
  }
}

=== FILE: sockaddr.dfy ===
/** The address value `csocketaddr`: a zero-initialised `sockaddr_storage`
    viewed through the `sockaddr_in` and `sockaddr_in6` layouts of Linux.
    The storage is modelled byte for byte, so every write says which bytes
    it leaves alone. */
module SockAddr {
  import opened Basics

  // Address families.
  const AF_UNSPEC: u16 := 0
  const AF_INET: u16 := 2
  const AF_INET6: u16 := 10

  // Structure sizes.
  const SS_SIZE: nat := 128      // sizeof(sockaddr_storage)
  const SIN_SIZE: nat := 16      // sizeof(sockaddr_in)
  const SIN6_SIZE: nat := 28     // sizeof(sockaddr_in6)

  // Field offsets; the family field (2 bytes, host order) is at offset 0 in
  // every layout, and the port (2 bytes, network order) at offset 2.
  const FAMILY_OFF: nat := 0
  const PORT_OFF: nat := 2
  const SIN_ADDR_OFF: nat := 4       // sin_addr, 4 bytes
  const SIN6_FLOWINFO_OFF: nat := 4  // sin6_flowinfo, 4 bytes
  const SIN6_ADDR_OFF: nat := 8      // sin6_addr, 16 bytes
  const SIN6_SCOPE_OFF: nat := 24    // sin6_scope_id, 4 bytes

  const INADDR_ANY: u32 := 0

  type Storage = s: seq<byte> | |s| == SS_SIZE witness Zeros(SS_SIZE)
  type Addr4 = s: seq<byte> | |s| == 4 witness Zeros(4)
  type Addr6 = s: seq<byte> | |s| == 16 witness Zeros(16)

  /** The default constructor: every storage byte zero. */
  function Fresh(): (a: Storage)
    ensures forall i :: 0 <= i < SS_SIZE ==> a[i] == 0
  {
    Zeros(SS_SIZE)
  }

  /** `ss_family`, read in host order. */
  function Family(e: Endian, a: Storage): (f: u16)
  {
    HostValue16(e, a[FAMILY_OFF..FAMILY_OFF + 2])
  }

  function SetFamily(e: Endian, a: Storage, f: u16): (r: Storage)
    ensures Family(e, r) == f
    ensures forall i :: 2 <= i < SS_SIZE ==> r[i] == a[i]
  {
    HostValueOfHostBytes16(e, f);
    Splice(a, FAMILY_OFF, HostBytes16(e, f))
  }

  /** The length handed to the kernel for this address: the size of the
      structure matching the family, the whole storage otherwise. */
  function Size(e: Endian, a: Storage): (n: nat)
    ensures n <= SS_SIZE
    ensures Family(e, a) == AF_INET <==> n == SIN_SIZE
    ensures Family(e, a) == AF_INET6 <==> n == SIN6_SIZE
    ensures Family(e, a) != AF_INET && Family(e, a) != AF_INET6 ==> n == SS_SIZE
  {
    var f := Family(e, a);
    if f == AF_INET then SIN_SIZE else if f == AF_INET6 then SIN6_SIZE else SS_SIZE
  }

  /** `port()`: the port in host order, 0 for a family other than AF_INET
      and AF_INET6. Both layouts keep the port at the same offset. */
  function Port(e: Endian, a: Storage): (p: u16)
    ensures Family(e, a) == AF_INET || Family(e, a) == AF_INET6 ==>
              p == FromBigEndian16(a[PORT_OFF..PORT_OFF + 2])
    ensures Family(e, a) != AF_INET && Family(e, a) != AF_INET6 ==> p == 0
  {
    var f := Family(e, a);
    var stored: u16 := if f == AF_INET || f == AF_INET6
      then HostValue16(e, a[PORT_OFF..PORT_OFF + 2]) else 0;
    Htons(e, stored)
  }

  /** `ip()`: the IP version tag, 4, 6 or 0. */
  function Ip(e: Endian, a: Storage): (v: nat)
    ensures v == 4 <==> Family(e, a) == AF_INET
    ensures v == 6 <==> Family(e, a) == AF_INET6
    ensures v != 4 && v != 6 ==> v == 0
  {
    var f := Family(e, a);
    if f == AF_INET then 4 else if f == AF_INET6 then 6 else 0
  }

  /** Family and port as `in4` and `in6` both write them. */
  function SetFamilyAndPort(e: Endian, a: Storage, f: u16, port: u16): (r: Storage)
    ensures Family(e, r) == f
    ensures r[PORT_OFF..PORT_OFF + 2] == BigEndian16(port)
    ensures forall i :: 4 <= i < SS_SIZE ==> r[i] == a[i]
  {
    HtonsStoresNetworkOrder(e, port);
    var a1 := SetFamily(e, a, f);
    var r := Splice(a1, PORT_OFF, HostBytes16(e, Htons(e, port)));
    assert r[FAMILY_OFF..FAMILY_OFF + 2] == a1[FAMILY_OFF..FAMILY_OFF + 2];
    r
  }

  /** The four `sin_addr` bytes replaced; family and port kept. */
  function PutAddr4(e: Endian, a: Storage, bytes: Addr4): (r: Storage)
    ensures Family(e, r) == Family(e, a)
    ensures r[PORT_OFF..PORT_OFF + 2] == a[PORT_OFF..PORT_OFF + 2]
    ensures r[SIN_ADDR_OFF..SIN_ADDR_OFF + 4] == bytes
    ensures forall i :: SIN_ADDR_OFF + 4 <= i < SS_SIZE ==> r[i] == a[i]
  {
    var r := Splice(a, SIN_ADDR_OFF, bytes);
    assert r[FAMILY_OFF..FAMILY_OFF + 2] == a[FAMILY_OFF..FAMILY_OFF + 2];
    assert r[PORT_OFF..PORT_OFF + 2] == a[PORT_OFF..PORT_OFF + 2];
    r
  }

  /** `in4(uint32_t ip, uint16_t port)`: family AF_INET, port and address
      converted to network order; sin_zero and the tail are not touched. */
  function In4(e: Endian, a: Storage, ip: u32, port: u16): (r: Storage)
    ensures Family(e, r) == AF_INET
    ensures r[SIN_ADDR_OFF..SIN_ADDR_OFF + 4] == BigEndian32(ip)
    ensures r[PORT_OFF..PORT_OFF + 2] == BigEndian16(port)
    ensures forall i :: SIN_ADDR_OFF + 4 <= i < SS_SIZE ==> r[i] == a[i]
  {
    HtonlStoresNetworkOrder(e, ip);
    PutAddr4(e, SetFamilyAndPort(e, a, AF_INET, port), HostBytes32(e, Htonl(e, ip)))
  }

  /** `in4(const std::string& ip, uint16_t port)`. The empty string stores
      INADDR_ANY. Otherwise the address comes from `inet_pton`, given here as
      `parsed`: four bytes on success; on failure `inet_pton` writes nothing
      and the previous address bytes stay. */
  function In4Text(e: Endian, a: Storage, text: string, port: u16, parsed: Option<Addr4>): (r: Storage)
    ensures Family(e, r) == AF_INET
    ensures r[PORT_OFF..PORT_OFF + 2] == BigEndian16(port)
    ensures |text| == 0 ==> r[SIN_ADDR_OFF..SIN_ADDR_OFF + 4] == Zeros(4)
    ensures |text| > 0 && parsed.Some? ==> r[SIN_ADDR_OFF..SIN_ADDR_OFF + 4] == parsed.value
    ensures |text| > 0 && parsed.None? ==> r[SIN_ADDR_OFF..SIN_ADDR_OFF + 4] == a[SIN_ADDR_OFF..SIN_ADDR_OFF + 4]
    ensures forall i :: SIN_ADDR_OFF + 4 <= i < SS_SIZE ==> r[i] == a[i]
  {
    var a1 := SetFamilyAndPort(e, a, AF_INET, port);
    if |text| == 0 then
      assert HostBytes32(e, INADDR_ANY) == Zeros(4);
      PutAddr4(e, a1, HostBytes32(e, INADDR_ANY))
    else if parsed.Some? then
      PutAddr4(e, a1, parsed.value)
    else
      assert a1[SIN_ADDR_OFF..SIN_ADDR_OFF + 4] == a[SIN_ADDR_OFF..SIN_ADDR_OFF + 4];
      a1
  }

  /** `in6(uint8_t ip[16], uint16_t port)`: family AF_INET6, port in network
      order and the 16 address bytes as given. sin6_flowinfo, sin6_scope_id
      and the tail keep whatever they held before. */
  function In6(e: Endian, a: Storage, ip: Addr6, port: u16): (r: Storage)
    ensures Family(e, r) == AF_INET6
    ensures r[PORT_OFF..PORT_OFF + 2] == BigEndian16(port)
    ensures r[SIN6_ADDR_OFF..SIN6_ADDR_OFF + 16] == ip
    ensures forall i :: SIN6_FLOWINFO_OFF <= i < SIN6_ADDR_OFF ==> r[i] == a[i]
    ensures forall i :: SIN6_SCOPE_OFF <= i < SS_SIZE ==> r[i] == a[i]
  {
    var a1 := SetFamilyAndPort(e, a, AF_INET6, port);
    var r := Splice(a1, SIN6_ADDR_OFF, ip);
    assert r[FAMILY_OFF..FAMILY_OFF + 2] == a1[FAMILY_OFF..FAMILY_OFF + 2];
    assert r[PORT_OFF..PORT_OFF + 2] == a1[PORT_OFF..PORT_OFF + 2];
    r
  }

  /** `in6(const std::string& ip, uint16_t port)`. The empty string zeroes
      the 16 address bytes; otherwise `inet_pton`'s result is `parsed`, and a
      failed parse leaves the address bytes as they were. */
  function In6Text(e: Endian, a: Storage, text: string, port: u16, parsed: Option<Addr6>): (r: Storage)
    ensures Family(e, r) == AF_INET6
    ensures r[PORT_OFF..PORT_OFF + 2] == BigEndian16(port)
    ensures |text| == 0 ==> r[SIN6_ADDR_OFF..SIN6_ADDR_OFF + 16] == Zeros(16)
    ensures |text| > 0 && parsed.Some? ==> r[SIN6_ADDR_OFF..SIN6_ADDR_OFF + 16] == parsed.value
    ensures |text| > 0 && parsed.None? ==> r[SIN6_ADDR_OFF..SIN6_ADDR_OFF + 16] == a[SIN6_ADDR_OFF..SIN6_ADDR_OFF + 16]
    ensures forall i :: SIN6_FLOWINFO_OFF <= i < SIN6_ADDR_OFF ==> r[i] == a[i]
    ensures forall i :: SIN6_SCOPE_OFF <= i < SS_SIZE ==> r[i] == a[i]
  {
    if |text| == 0 then In6(e, a, Zeros(16), port)
    else if parsed.Some? then In6(e, a, parsed.value, port)
    else SetFamilyAndPort(e, a, AF_INET6, port)
  }

  /** A default-constructed address is unset: family 0, port 0, IP version
      0, and its wire length is the whole storage. */
  lemma FreshIsUnset(e: Endian)
    ensures Family(e, Fresh()) == AF_UNSPEC
    ensures Port(e, Fresh()) == 0
    ensures Ip(e, Fresh()) == 0
    ensures Size(e, Fresh()) == SS_SIZE
  {
    assert Fresh()[FAMILY_OFF..FAMILY_OFF + 2] == [0, 0];
  }

  /** Port round trip for IPv4: what `in4` stores, `port()` reads back, and
      the address version and wire length are those of `sockaddr_in`. */
  lemma In4RoundTrip(e: Endian, a: Storage, ip: u32, port: u16)
    ensures Port(e, In4(e, a, ip, port)) == port
    ensures Ip(e, In4(e, a, ip, port)) == 4
    ensures Size(e, In4(e, a, ip, port)) == SIN_SIZE
    ensures FromBigEndian32(In4(e, a, ip, port)[SIN_ADDR_OFF..SIN_ADDR_OFF + 4]) == ip
  {
    FromBigEndian32Inverse(ip);
  }

  /** Port round trip for IPv6. */
  lemma In6RoundTrip(e: Endian, a: Storage, ip: Addr6, port: u16)
    ensures Port(e, In6(e, a, ip, port)) == port
    ensures Ip(e, In6(e, a, ip, port)) == 6
    ensures Size(e, In6(e, a, ip, port)) == SIN6_SIZE
  {
  }

  /** The textual forms set the same family and port as the numeric ones. */
  lemma TextRoundTrip(e: Endian, a: Storage, text: string, port: u16, p4: Option<Addr4>, p6: Option<Addr6>)
    ensures Port(e, In4Text(e, a, text, port, p4)) == port
    ensures Ip(e, In4Text(e, a, text, port, p4)) == 4
    ensures Port(e, In6Text(e, a, text, port, p6)) == port
    ensures Ip(e, In6Text(e, a, text, port, p6)) == 6
  {
  }
}

=== FILE: socketepoll.dfy ===
/** `csocketepoll`: the reactor whose dispatch only tells the accept callback
    which server is readable; accepting is left to the callback. */
module SocketEpoll {
  import opened Basics
  import Handles
  import opened Registry
  import opened Dispatch

  /** `csocketepoll::listen(milliseconds)`: no connection is accepted during
      the cycle, so the pending queues are untouched, and no accept callback
      carries an accepted descriptor. */
  function Listen(h: Handlers, r: Reactor, order: seq<int>, poll: PollResult, backlog: Backlog): (c: Cycle)
    requires IsEnumeration(order, r.socks.Keys)
    requires poll.PollReady? ==> |poll.revents| == |r.socks|
    ensures c.backlog == backlog
    ensures forall k :: 0 <= k < |c.trace| ==> !c.trace[k].Accepted?
    ensures AboutRegistered(r.socks, c.trace)
    ensures |r.socks| > 0 && poll.PollReady? && poll.count == 0 ==> c.trace == [] && c.reactor.socks == r.socks
  {
    ListenModeEvents(Notify, h, r, order, poll, backlog);
    ListenSubjects(Notify, h, r, order, poll, backlog);
    Dispatch.Listen(Notify, h, r, order, poll, backlog)
  }

  /** A listening socket with connections waiting and POLLIN reported: one
      accept callback with the server, however many are pending. */
  lemma ReadableServerNotifiedOnce(h: Handlers, so: Handles.Handle, fd: int, mask: bv16, backlog: Backlog)
    requires h.onAccept
    ensures var r := Reactor(map[fd := Entry(so, true, mask)], []);
            var c := Listen(h, r, [fd], PollReady(1, [POLLIN]), backlog);
            && c.trace == [AcceptReady(so)]
            && c.reactor.socks == r.socks
            && c.result == 1
  {
    var r := Reactor(map[fd := Entry(so, true, mask)], []);
    assert r.socks.Keys == {fd};
    SingleSlotCycle(Notify, h, r, [fd], POLLIN, backlog);
    var p := Polled(r, [fd], [POLLIN])[0];
    assert p.fd == fd;
    assert Tail(h, POLLIN, so) == [];
  }

  /** An error on a server: the error callback gets the server handle and
      the registration ends, with no accept callback. */
  lemma ServerErrorEvicts(h: Handlers, so: Handles.Handle, fd: int, mask: bv16, backlog: Backlog)
    requires h.onError
    ensures var r := Reactor(map[fd := Entry(so, true, mask)], []);
            var c := Listen(h, r, [fd], PollReady(1, [POLLERR]), backlog);
            && c.trace == [Errored(so)]
            && fd !in c.reactor.socks
  {
    var r := Reactor(map[fd := Entry(so, true, mask)], []);
    assert r.socks.Keys == {fd};
    SingleSlotCycle(Notify, h, r, [fd], POLLERR, backlog);
    var p := Polled(r, [fd], [POLLERR])[0];
    assert p.fd == fd;
    assert Tail(h, POLLERR, so) == [Errored(so)];
  }
}

=== FILE: socketpoll.dfy ===
/** `csocketpoll`: the reactor whose dispatch accepts pending connections on
    a readable server itself, reporting each to the accept callback together
    with its peer address and the server. */
module SocketPoll {
  import opened Basics
  import Handles
  import opened Registry
  import opened Dispatch

  /** `csocketpoll::listen(milliseconds)`: no bare accept notification is
      ever made, and every callback is about a registered handle. */
  function Listen(h: Handlers, r: Reactor, order: seq<int>, poll: PollResult, backlog: Backlog): (c: Cycle)
    requires IsEnumeration(order, r.socks.Keys)
    requires poll.PollReady? ==> |poll.revents| == |r.socks|
    ensures forall k :: 0 <= k < |c.trace| ==> !c.trace[k].AcceptReady?
    ensures AboutRegistered(r.socks, c.trace)
    ensures |r.socks| > 0 && poll.PollReady? && poll.count == 0 ==> c.trace == [] && c.reactor.socks == r.socks
  {
    ListenModeEvents(Drain, h, r, order, poll, backlog);
    ListenSubjects(Drain, h, r, order, poll, backlog);
    Dispatch.Listen(Drain, h, r, order, poll, backlog)
  }

  /** A server slot reporting only POLLIN, with every pending accept
      succeeding: the slot's callbacks are the drained accepts and its
      queue ends empty. */
  lemma DrainedServerSlot(h: Handlers, p: PollFd, socks: Socks, backlog: Backlog)
    requires h.onAccept && p.fd in socks && socks[p.fd].server && p.revents == POLLIN
    requires p.fd in backlog && forall i :: 0 <= i < |backlog[p.fd]| ==> AcceptSucceeds(backlog[p.fd][i])
    ensures var o := Slot(Drain, h, p, socks, backlog);
            && o.trace == DrainAccepts(backlog[p.fd], socks[p.fd].sock).0
            && o.backlog == backlog[p.fd := []]
            && o.socks == socks
  {
    var so := socks[p.fd].sock;
    DrainTakesAll(backlog[p.fd], so);
    SlotTrace(Drain, h, p, socks, backlog);
    ReadPartDrains(h, p, socks, backlog);
    SlotConsumesBacklog(h, p, socks, backlog);
    assert Tail(h, POLLIN, so) == [];
  }

  /** A listening socket with N connections waiting and POLLIN reported:
      one cycle makes N accept callbacks, in queue order, each with the
      accepted descriptor, its address and the server, and empties the
      queue; the server stays registered. */
  lemma PendingConnectionsAllAccepted(h: Handlers, so: Handles.Handle, fd: int, mask: bv16, q: seq<Conn>,
                                      backlog: Backlog)
    requires h.onAccept
    requires forall i :: 0 <= i < |q| ==> AcceptSucceeds(q[i])
    ensures var r := Reactor(map[fd := Entry(so, true, mask)], []);
            var c := Listen(h, r, [fd], PollReady(1, [POLLIN]), backlog[fd := q]);
            && |c.trace| == |q|
            && (forall i :: 0 <= i < |q| ==> c.trace[i] == Accepted(q[i].fd, q[i].addr, so))
            && c.backlog == backlog[fd := []]
            && c.reactor.socks == r.socks
            && c.result == 1
  {
    var r := Reactor(map[fd := Entry(so, true, mask)], []);
    var b := backlog[fd := q];
    assert r.socks.Keys == {fd};
    var c := Dispatch.Listen(Drain, h, r, [fd], PollReady(1, [POLLIN]), b);
    assert Listen(h, r, [fd], PollReady(1, [POLLIN]), b) == c;
    SingleSlotCycle(Drain, h, r, [fd], POLLIN, b);
    var p := Polled(r, [fd], [POLLIN])[0];
    assert p.fd == fd && p.revents == POLLIN;
    DrainedServerSlot(h, p, r.socks, b);
    var o := Slot(Drain, h, p, r.socks, b);
    assert c.trace == o.trace && c.backlog == o.backlog && c.reactor.socks == o.socks;
    DrainTakesAll(q, so);
    UpdateTwice(backlog, fd, q, []);
  }

  lemma UpdateTwice(m: Backlog, k: int, v: seq<Conn>, w: seq<Conn>)
    ensures m[k := v][k := w] == m[k := w]
  {
  }

  /** A client reporting data and hangup together: the read callback, then
      the hangup callback, and the client is gone from the registry. */
  lemma ReadThenHangup(h: Handlers, so: Handles.Handle, fd: int, mask: bv16, backlog: Backlog)
    requires h.onReadable && h.onHangup
    ensures var r := Reactor(map[fd := Entry(so, false, mask)], []);
            var c := Listen(h, r, [fd], PollReady(1, [POLLIN | POLLHUP]), backlog);
            && c.trace == [Readable(so), Hangup(so)]
            && fd !in c.reactor.socks
            && c.backlog == backlog
  {
    var r := Reactor(map[fd := Entry(so, false, mask)], []);
    assert r.socks.Keys == {fd};
    SingleSlotCycle(Drain, h, r, [fd], POLLIN | POLLHUP, backlog);
    var p := Polled(r, [fd], [POLLIN | POLLHUP])[0];
    assert p.fd == fd;
    assert Tail(h, POLLIN | POLLHUP, so) == [Hangup(so)];
  }
}
